=== FILE: README.md ===
# A model of a kilo-style terminal text viewer

This project models, in Dafny, the viewing and navigation engine of a small
terminal text viewer written in C, in two of its stages.

The later stage, `level3/main.c`, is modelled in these modules:

- **`Keys`**: the key decoder.
  - Bytes arrive one `read` call at a time; a failed call is `None`.
  - Escape sequences become named keys.
  - Anything unrecognised, and any escape sequence cut short, is the escape key.
- **`Rows`**: the row store.
  - A row holds its raw characters (`chars`) and a render form (`render`) in which tabs are expanded to the next multiple of 8.
  - `CxToRx` maps a raw column to a render column.
  - The loader strips trailing CR and LF from every line and appends one row per line.
- **`Viewer`**: the editor state and what each key does to it.
  - The scroll step moves `rowoff` and `coloff` just far enough to show the cursor.
  - The cursor moves wrap across lines. Row `numrows` is a sentinel one past the last row.
  - Keypress handling covers Home, End, paging and quitting.
- **`Screen`**: the frame.
  - The text rows, showing a window onto each row's render.
  - The `~` filler and the centred welcome banner for an empty buffer.
  - The reverse-video status bar, exactly `screencols` wide.
  - The message bar, which shows a message for five seconds.
  - The cursor placement.
  - The byte string that `editorRefreshScreen` writes.
- **`Drawing`**: the drawing routines as the C code runs them.
  - Every piece goes into the append buffer through `abAppend`, one call per call in the C code.
  - Each routine is shown to leave exactly the text that the matching `Screen` definition describes.
- **`Session`**: program start and the main loop, with the first key and everything after it.

The earlier stage, `level2/main.c`, is modelled in **`Skeleton`**:

- a cursor clamped to the screen;
- a frame of `*` markers, also built append by append;
- the same decoder, which is shared from `Keys`.

Shared support:

- **`Terminal`**:
  - the ECMA-48 and DEC control sequences (CUP, EL, ED, SGR, DEC private mode 25);
  - `abAppend`;
  - `Split`, which cuts an output string at CR LF into the lines a terminal shows, together with its inverse `Join`.
- **`Decimal`**: the `%d` numerals in the output, with a parse function as their inverse.
- **`Ints`**, **`Wrappers`**: small helpers.

Some behaviour of the C code is kept exactly as written:

- The text window is `screenrows` tall even though two bar lines follow it. As a result a frame fills `screenrows + 2` terminal lines (`Screen.FrameLines`).
- The welcome text reads "wlecome editor -- version 0.0.1" (`Screen.Welcome`).
- On the sentinel row the status bar shows `cy + 1`, which is one more than the number of lines (`Screen.StatusRight`).
- DEL is decoded but does nothing (`Viewer.SimpleKeys`).

## Model

| member | source | states |
|---|---|---|
| Keys.AfterEscape | level3/main.c:169-205 | After ESC the decoder takes at most three more reads. It consumes only those reads: the rest of the input is an unchanged suffix. (`Keys.DecoderMatchesTable` gives the exact count.) |
| Keys.ReadKey | level3/main.c:163-210 | A key is produced exactly when some read delivers a byte; failed reads before the first byte are retried. Each key consumes at least one read and leaves a suffix of the input. |
| Keys.ReadKeyFirstByte | level3/main.c:166-209 | A first byte other than ESC comes back as itself after one read. After ESC the key is the one the reference table assigns to what follows, and decoding resumes right after the reads the table counts. |
| Keys.ReadKeySkipsFailedReads | level3/main.c:166-168 | Failed reads before the first byte are skipped: the key is the same as if the input began at that byte. |
| Keys.DecoderMatchesTable | level3/main.c:169-205 | After ESC the decoder agrees with an independent table of the 15 recognised sequences. Every other continuation is ESC, including a failed follow-up read, `ESC[2~` and `ESC[5x`. The decoder consumes exactly the reads the table counts: 1 when the first follow-up read fails, 2 when the second fails or the pair is not `[` and a digit, and 3 otherwise, never more than the input holds. |
| Keys.EncodeDecode | level2/main.c:114-161 | Every key has a byte sequence that decodes back to it and consumes exactly that sequence, whatever input follows. A lone ESC needs a failed read after it. |
| Terminal.JoinEnds | level3/main.c:288-317 | The rows written with CR LF after each are empty exactly when there are no rows, and otherwise end with CR LF. |
| Terminal.SplitJoin | level3/main.c:314-315 | Lines without line feeds, each ended by CR LF, come back out of `Split` one by one and in order, whatever follows them. |
| Decimal.IntRoundTrip | level3/main.c:266-267 | The `%d` numeral of any integer parses back to the same integer, so CUP carries the intended line and column. |
| Rows.NextTabStop | level3/main.c:446-448 | A tab starting at column `col` ends at the next multiple of 8 that is strictly greater than `col`. |
| Rows.Render | level3/main.c:444-454 | The render form holds no tab. Its length is between `size` and `size + 7 * tabs`. |
| Rows.RenderPlacement | level3/main.c:445-451 | Raw character `j` sits at render column `CxToRx(j)`. A non-tab character is copied there, and a tab fills spaces from there up to the next tab stop. |
| Rows.RenderAddsOnlySpaces | level3/main.c:445-451 | Rendering introduces no character except spaces. |
| Rows.RenderPrefix | level3/main.c:444-452 | Rendering a prefix of the row gives a prefix of the row's render. |
| Rows.CountRowTabs | level3/main.c:436-439 | The counting loop finds exactly the number of tabs in the row. |
| Rows.AppendTab | level3/main.c:446-448 | The padding loop appends spaces up to the next tab stop. |
| Rows.UpdateRow | level3/main.c:435-455 | The loops produce the row's render form and keep `chars`. The render length stays within the bound used to size the buffer. |
| Rows.TabAdvanceIsNextStop | level3/main.c:461-463 | In `editorRowCxToRx` a tab moves `rx` to the next tab stop. |
| Rows.CxToRx | level3/main.c:457-466 | The render column is never smaller than the raw column. |
| Rows.EndOfRowMapsToRenderSize | level3/main.c:457-466 | Column 0 maps to 0, and the end of the row maps to `rsize`. |
| Rows.CxToRxStrictlyIncreasing | level3/main.c:457-466 | Later raw columns map to strictly later render columns. |
| Rows.CxToRxPrefix | level3/main.c:460-464 | The render column of `cx` depends only on the characters before `cx`. |
| Rows.RenderWidth | level3/main.c:457-466 | `CxToRx(k)` is the render length of the first `k` characters, so the mapping agrees with the tab expansion. |
| Rows.StripLineEnding | level3/main.c:243-245 | The loader keeps a prefix of the line and drops only CR and LF characters. What it keeps does not end in CR or LF. |
| Rows.StrippedHasNoNewline | level3/main.c:242-245 | A `getline` line, whose only possible LF is the last character, holds no LF after stripping. |
| Rows.AppendRow | level3/main.c:398-414 | Appending adds exactly one row and leaves the earlier rows unchanged. The new row holds the given characters and a freshly computed render. |
| Rows.Load | level3/main.c:242-247 | Loading appends one row per line and keeps the rows that were already there. |
| Rows.LoadedRows | level3/main.c:242-247 | Row `i` of a load holds line `i` with its line ending stripped, and has an up-to-date render. |
| Rows.LoadedRowsHaveNoNewline | level3/main.c:242-247 | No loaded row holds a line feed. |
| Viewer.InitEditor | level3/main.c:96-110 | The editor starts with no rows, with the cursor and offsets at 0. With at least one row and column it satisfies the editor invariant. |
| Viewer.GetWindowSize | level3/main.c:274-285 | The size is refused exactly when the query fails or the window has no column; otherwise it is the window's rows and columns, with zero rows accepted. |
| Viewer.ZeroRowsLeaveTheBuffer | level3/main.c:274-285 | With no screen row and no file, the first scroll sets `rowoff` to 1 (line 425), so PAGE_UP puts the cursor on row 1 of an empty buffer (line 377), outside the valid range. The next LEFT then reads `E.row[0]` (line 328). |
| Viewer.WindowSize | level3/main.c:274-285 | The intended check also refuses a window with no row. Every size it accepts gives a valid starting editor. |
| Viewer.WindowSizeKeepsPagingInBuffer | level3/main.c:373-388 | For any size the intended check accepts, the first refresh keeps `rowoff` at 0, so PAGE_UP starts inside the buffer and the cursor stays valid. |
| Viewer.Open | level3/main.c:232-254 | Opening records the file name, resets both offsets and appends the stripped lines after any existing rows. Nothing else changes: the cursor, the window size and the message are kept. It keeps the editor invariant. |
| Viewer.Scroll | level3/main.c:416-433 | `rx` is 0 on the sentinel row and the mapped column otherwise. Afterwards the cursor lies inside the window. An offset that already showed the cursor is kept, and otherwise the offset moves no further than any other offset that would show it. Nothing else changes. |
| Viewer.MoveCursor | level3/main.c:319-356 | Every move keeps `0 <= cy <= numrows` and `0 <= cx <= len(row cy)`, where the length is 0 on the sentinel row. Only the cursor changes. |
| Viewer.LeftWrapsToPreviousRow | level3/main.c:322-326 | LEFT at column 0, below the first row, goes to the end of the previous row. |
| Viewer.RightWrapsToNextRow | level3/main.c:331-336 | RIGHT at the end of a row goes to column 0 of the next row. |
| Viewer.RightThenLeft | level3/main.c:321-339 | On a real row, RIGHT then LEFT returns to the starting position. |
| Viewer.LeftThenRight | level3/main.c:321-339 | Away from the top-left corner, LEFT then RIGHT returns to the starting position. |
| Viewer.HorizontalEdges | level3/main.c:322-339 | LEFT at the top-left corner and RIGHT on the sentinel row change nothing. |
| Viewer.VerticalStep | level3/main.c:340-355 | UP stops at row 0 and DOWN stops at the sentinel. Either way the column is then cut to the new row's length. |
| Viewer.Repeat | level3/main.c:384-386 | Repeated single steps keep the cursor valid and change nothing but the cursor. |
| Viewer.RepeatUp | level3/main.c:340-355 | `n` UP steps land on row `max(cy - n, 0)`. The column is cut to the shortest row passed on the way. |
| Viewer.RepeatDown | level3/main.c:340-355 | `n` DOWN steps land on row `min(cy + n, numrows)`. The column is cut to the shortest row passed on the way. |
| Viewer.Page | level3/main.c:373-388 | Paging keeps the cursor valid and changes nothing but the cursor. |
| Viewer.PageUpLands | level3/main.c:376-386 | PAGE_UP jumps to `rowoff` and then takes `screenrows` UP steps. It lands on row `max(rowoff - screenrows, 0)` with the column cut by the rows passed. |
| Viewer.PageDownLands | level3/main.c:379-386 | PAGE_DOWN jumps to `min(rowoff + screenrows - 1, numrows)` and then takes `screenrows` DOWN steps. It lands on `min(rowoff + 2*screenrows - 1, numrows)`. |
| Viewer.ProcessKeypress | level3/main.c:358-396 | The editor quits exactly on Ctrl-Q (byte 0x11), writing "clear the screen, cursor home". Any other key keeps the editor invariant and changes only the cursor. |
| Viewer.ArrowKeys | level3/main.c:389-394 | Each arrow key does exactly the single cursor step for that arrow: UP moves to row `max(cy - 1, 0)` and DOWN to `min(cy + 1, numrows)`. |
| Viewer.PagingKeys | level3/main.c:373-388 | PAGE_UP and PAGE_DOWN run the paging block. PAGE_UP lands on row `max(rowoff - screenrows, 0)` and PAGE_DOWN on `min(rowoff + 2*screenrows - 1, numrows)`. |
| Viewer.SimpleKeys | level3/main.c:366-372 | HOME sets `cx = 0`. END sets `cx` to the row length on a real row and to 0 on the sentinel. DEL and every byte other than Ctrl-Q change nothing. |
| Screen.Window | level3/main.c:309-312 | A drawn row is the run of render characters starting at `coloff`. It is cut only by the window width or the end of the render, so its length is `clamp(rsize - coloff, 0, screencols)`. |
| Screen.WelcomeLine | level3/main.c:293-304 | The banner shows as much of the welcome text as fits, centred with at most one column of imbalance. Its left margin starts with `~` and continues with spaces. |
| Screen.ScreenLine | level3/main.c:291-313 | A screen line shows the row's window when a row is there. Past the last row it shows `~`, except the welcome banner at row `screenrows / 3` when the buffer is empty. |
| Screen.DrawRows | level3/main.c:288-317 | The rows are empty exactly when there are no screen rows, and otherwise end with CR LF. `Screen.DrawRowsLines` gives the lines they show, and `Drawing.AppendRows` the loop that writes them. |
| Screen.DrawRowsLines | level3/main.c:288-317 | What `editorDrawRows` writes shows as exactly those lines on the terminal, and whatever follows starts on a fresh line. |
| Screen.FileLabel | level3/main.c:471-472 | The file label is "[No Name]" without a file, and otherwise the first `min(20, length)` characters of the name. |
| Screen.Pad | level3/main.c:477-486 | The padding loop right-aligns the right part when it fits in what is left. Otherwise it fills the rest of the line with spaces. |
| Screen.StatusText | level3/main.c:468-489 | The status text is exactly `screencols` characters: the clipped left part, then either spaces and the whole right part, when it fits, or only spaces. |
| Screen.StatusLine | level3/main.c:468-489 | The status bar is the reverse-video sequence, exactly `screencols` visible characters, then the attribute reset. `Screen.StatusIsOneLine` keeps it on one line. |
| Screen.DrawStatusBar | level3/main.c:468-489 | The status bar is followed by CR LF, so the message bar starts on a fresh line. |
| Screen.MessageText | level3/main.c:499-505 | The message bar shows a prefix of the message no wider than the screen. It shows something exactly when the message is non-empty, the screen has a column and the message is less than 5 seconds old. |
| Screen.DrawMessageBar | level3/main.c:499-505 | The message bar starts with EL. What follows EL is a prefix of the message, at most `screencols` characters long. |
| Screen.SetStatusMessage | level3/main.c:490-496 | Setting a message keeps at most 79 characters of it and stamps the time. Nothing else changes. |
| Screen.MessageLifetime | level3/main.c:490-505 | A message that fits is shown in full for the first 5 seconds after it was set, and never afterwards. |
| Screen.RefreshScreen | level3/main.c:256-272 | A refresh scrolls first. The cursor is then placed at a 1-based line and column inside the text window. |
| Screen.ComposeFrame | level3/main.c:256-272 | A frame starts by hiding the cursor and ends by showing it again. |
| Screen.FrameLines | level3/main.c:256-272 | A frame shows as `screenrows + 2` terminal lines: the drawn rows, the first preceded by hide-cursor and home, then the status bar, then the message bar followed by the cursor placement. |
| Drawing.AppendWelcome | level3/main.c:293-304 | Appending `~`, the padding spaces one by one and the clipped text adds exactly the welcome line. |
| Drawing.AppendScreenLine | level3/main.c:291-313 | Each branch of the loop body appends exactly that screen line. For a row, this is `len` bytes from `render + coloff`, after `len` is clamped to `[0, screencols]`. |
| Drawing.AppendLine | level3/main.c:291-315 | One pass of the loop appends the screen line, EL and CR LF. |
| Drawing.AppendRows | level3/main.c:288-317 | The whole loop of `editorDrawRows` appends exactly the rows of the frame. |
| Drawing.AppendStatusText | level3/main.c:471-486 | The left part clipped to the width, then single spaces until the right part exactly fills the rest, with the `break`, add up to the status text. |
| Drawing.AppendStatusBar | level3/main.c:468-489 | `editorDrawStatusBar` appends exactly the status bar with its CR LF. |
| Drawing.AppendMessageBar | level3/main.c:499-505 | `editorDrawMessageBar` appends exactly the message bar for the given time. |
| Drawing.AppendLastLine | level3/main.c:263-269 | The message bar, the cursor placement and show-cursor are appended in that order. |
| Drawing.AppendFrame | level3/main.c:258-269 | The buffer filled after scrolling is exactly the frame of the scrolled state. |
| Drawing.BuildFrame | level3/main.c:256-272 | `editorRefreshScreen` scrolls, then writes exactly the frame that `Screen.RefreshScreen` describes. |
| Session.Start | level3/main.c:112-120 | Start-up gives an editor with the cursor and offsets at 0, showing the help message stamped with the start time. With a file, the editor holds one stripped row per line. |
| Session.Launch | level3/main.c:96-117 | Start-up with the intended size check. A refused window ends the program before anything is drawn; every accepted one gives a valid editor at (0, 0) showing the help message. |
| Session.Run | level3/main.c:122-125 | The loop draws a frame before every key: the first frame is the refresh of the starting state. Running keeps the editor invariant, and a quit ends with the clear-screen output. |
| Session.QuitStopsTheRun | level3/main.c:122-125 | After Ctrl-Q the loop draws no further frame and ignores the rest of the input. |
| Session.RunOneKey | level3/main.c:122-125 | Any other key is drawn for, handled, and then the loop continues on the rest of the input. |
| Skeleton.InitEditor | level2/main.c:64-69 | The cursor starts at (0, 0). This is on screen exactly when the screen has at least one row and one column. |
| Skeleton.MoveCursor | level2/main.c:220-243 | An arrow moves the cursor by at most one cell and never wraps. Any other key changes nothing. An on-screen cursor stays on screen. |
| Skeleton.MoveIsClampedStep | level2/main.c:220-243 | Each arrow is one step clamped to the screen edge. |
| Skeleton.Repeat | level2/main.c:262-264 | Repeated steps keep the cursor on screen. |
| Skeleton.RepeatVertical | level2/main.c:259-266 | `n` UP steps give `max(cy - n, 0)` and `n` DOWN steps give `min(cy + n, screenrows - 1)`. |
| Skeleton.ProcessKeypress | level2/main.c:245-274 | The editor exits exactly on Ctrl-Q, writing "clear the screen, cursor home". Each arrow key does the cursor move for that arrow. Every other key keeps the screen size and an on-screen cursor. |
| Skeleton.ArrowKeys | level2/main.c:267-271 | On the screen, LEFT, RIGHT, UP and DOWN each move the cursor one cell their way, stopping at the edge. |
| Skeleton.PagingReachesEdges | level2/main.c:259-266 | PAGE_UP ends on row 0 and PAGE_DOWN ends on row `screenrows - 1`, from any on-screen start. |
| Skeleton.HomeAndEnd | level2/main.c:253-258 | HOME sets `cx = 0` and END sets `cx = screencols - 1`; `cy` is unchanged. |
| Skeleton.DrawRowsFrom | level2/main.c:209-218 | From line `y`, the rows are `6 * (screenrows - y) - 2` bytes (a 4-byte marker per line and CR LF between lines) and begin with a marker. |
| Skeleton.DrawRows | level2/main.c:209-218 | All the rows take `6 * screenrows - 2` bytes, nothing when there are no rows, and begin with a marker. |
| Skeleton.AppendMarkers | level2/main.c:209-218 | The loop of `editorDrawRows`, with CR LF only when `y < screenrows - 1`, appends exactly those rows. |
| Skeleton.RefreshScreen | level2/main.c:183-194 | A frame begins with hide-cursor and home, and is at least that long plus show-cursor. `Skeleton.FrameLines` gives the lines it shows. |
| Skeleton.BuildScreen | level2/main.c:183-194 | The appends of `editorRefreshScreen` fill exactly that frame. |
| Skeleton.DrawRowsFromShape | level2/main.c:209-218 | The rows are `screenrows` markers `*` + EL, with CR LF after every marker but the last. |
| Skeleton.FrameLines | level2/main.c:183-194 | A frame shows as exactly `screenrows` terminal lines. The first is preceded by hide-cursor and home, and the cursor placement and show-cursor follow the last marker. |

## Findings

| source | as written | input that shows it | evidently intended | confidence | as-written member | corrected member |
|---|---|---|---|---|---|---|
| level3/main.c:277 | `getWindowSize` refuses only `ws_col == 0`, so a window with no text row is accepted | a window of 0 rows and at least 1 column, no file: the first refresh sets `rowoff = 1`, PAGE_UP sets `cy = 1` in an empty buffer, and the next LEFT reads `E.row[0].size` through a null `E.row` | refuse `ws_row == 0` as well, so that `rowoff <= numrows` and the cursor stays on a row or the sentinel | not executed | Viewer.ZeroRowsLeaveTheBuffer | Viewer.WindowSize |

## Left out

- Raw mode (`enableRawMode`, `disableRawMode`, termios) is not modelled. It is terminal configuration with no logic of the viewer in it.
- The `ioctl` behind `getWindowSize` is not modelled: its result is a parameter, with `None` for a failed query.
- `die`, `perror` and `exit` are not modelled, nor are hard `read` errors. A failed read is `None`, and ending the program is the `Quit` or `Exit` outcome.
- `write` is not modelled: a frame is returned as a string.
- `fopen`, `getline` and `fclose` are not modelled. The lines of the file are a parameter, and a failing `fopen` is not modelled.
- `time(NULL)` is not modelled: the clock reading is a parameter. `Session.Run` uses one reading for the whole run, so a message does not expire during a run.
- `vsnprintf` formatting is not modelled: messages are passed already formatted.
- `realloc` and `malloc` failure, `free` and the NUL terminators are not modelled. Buffers and rows are sequences.
- `level1/main.c` is not part of this model. It only toggles raw mode and prints key codes.
- Bytes of 0x80 and above are kept as 0..255. Where `char` is signed, the C code reads them as negative values. No key handler matches them either way.
- Viewer.Valid: requires `screenrows >= 1` and `screencols >= 1`, which `Viewer.WindowSize` guarantees. `getWindowSize` as written also accepts a window with zero rows. There the cursor can leave the buffer and the next LEFT reads a row that does not exist (see "## Findings"), so that run is not modelled beyond the counterexample.
- Rows.CxToRx: requires `cx <= size`. Every caller keeps `cx` in that range, so reads past the row are not modelled.
- Screen.FrameLines: stated only when rows, file name and message hold no line feed. `getline` rows and the help message hold none.
- Screen.DrawRowsLines: has the same line-feed condition as `Screen.FrameLines`.
- Screen.FileLabel: `%.20s` counts bytes. Here characters stand for bytes, so a multi-byte UTF-8 name is not split mid-character the way the C code can split it.
- Integers are unbounded. The C code keeps `cx`, `cy`, `rx`, `rowoff`, `coloff`, `numrows`, `size` and `rsize` in 32-bit `int`. No modelled operation relies on wrap-around. The values stay below 2^31 only while every row renders to fewer than 2^31 bytes and the file has fewer than 2^31 lines.
- Rows.UpdateRow: the overflow of the render size for very long rows is not modelled. `malloc(size + tabs*7 + 1)` (level3/main.c:442) is computed in `int` and wraps for a row of about 2^28 tabs, a 256 MiB line. Beyond that `rsize` itself passes 2^31. The model computes the render exactly for every row length.
- The 80-byte `status` and `rstatus` buffers of `editorDrawStatusBar` are not modelled: both texts are shorter than 80 bytes for any 32-bit line count.
- Session.Run: stops when the input runs out. The C code would block waiting for the next byte.

=== FILE: decimal.dfy ===
/**
  Decimal rendering of integers, as `snprintf`'s `%d` conversion writes them
  into the status bar and into cursor-position control sequences, together
  with the parser a terminal applies to read them back.
 */
module Decimal {

  predicate IsDigit(c: char) {
    '0' <= c <= '9'
  }

  predicate AllDigits(s: string) {
    forall i :: 0 <= i < |s| ==> IsDigit(s[i])
  }

  function DigitChar(d: nat): (c: char)
    requires d < 10
    ensures IsDigit(c)
  {
    (d + '0' as int) as char
  }

  function DigitValue(c: char): (d: nat)
    requires IsDigit(c)
    ensures d < 10
  {
    c as int - '0' as int
  }

  /** `%d` of a non-negative value: the shortest decimal numeral, no leading zero. */
  function NatToString(n: nat): (s: string)
    ensures 1 <= |s|
    ensures AllDigits(s)
    ensures s[0] == '0' ==> n == 0 && |s| == 1
    decreases n
  {
    if n < 10 then [DigitChar(n)] else NatToString(n / 10) + [DigitChar(n % 10)]
  }

  /** `%d` of any int: a minus sign in front of the magnitude when negative. */
  function IntToString(i: int): (s: string)
    ensures 1 <= |s|
    ensures s[0] == '-' <==> i < 0
    ensures '-' !in s[1..]
  {
    if i < 0 then "-" + NatToString(-i) else NatToString(i)
  }

  /** How a reader of the numeral recovers its value. */
  function ParseNat(s: string): nat
    requires AllDigits(s)
    decreases |s|
  {
    if |s| == 0 then 0 else ParseNat(s[..|s| - 1]) * 10 + DigitValue(s[|s| - 1])
  }

  function ParseInt(s: string): int
    requires 1 <= |s|
    requires s[0] == '-' ==> AllDigits(s[1..])
    requires s[0] != '-' ==> AllDigits(s)
  {
    if s[0] == '-' then -(ParseNat(s[1..]) as int) else ParseNat(s)
  }

  lemma {:induction false} NatRoundTrip(n: nat)
    ensures ParseNat(NatToString(n)) == n
    decreases n
  {
    var s := NatToString(n);
    if n >= 10 {
      NatRoundTrip(n / 10);
      assert s[..|s| - 1] == NatToString(n / 10);
    }
  }

  lemma IntRoundTrip(i: int)
    ensures var s := IntToString(i);
      (s[0] == '-' ==> AllDigits(s[1..])) && (s[0] != '-' ==> AllDigits(s)) && ParseInt(s) == i
  {
    if i < 0 {
      NatRoundTrip(-i);
      assert IntToString(i)[1..] == NatToString(-i);
    } else {
      NatRoundTrip(i);
    }
  }

  /** Different values are printed differently. */
  lemma IntToStringInjective(i: int, j: int)
    requires IntToString(i) == IntToString(j)
    ensures i == j
  {
    IntRoundTrip(i);
    IntRoundTrip(j);
  }
}

=== FILE: drawing.dfy ===
/**
  How the third editor actually writes a frame: every piece goes into an
  append buffer through `abAppend`, one call per piece, in the order of the
  drawing routines. Each routine is shown to leave in the buffer exactly
  the text that the corresponding definition in `Screen` describes.
 */
module Drawing {
  import opened Ints
  import opened Terminal
  import opened Rows
  import opened Viewer
  import opened Screen

  /** The welcome branch of `editorDrawRows`: the tilde, the padding spaces one by one, then the text. */
  method AppendWelcome(ab0: string, cols: int) returns (ab: string)
    requires 0 <= cols
    ensures ab == ab0 + WelcomeLine(cols)
  {
    var welcomelen := |Welcome|;
    if welcomelen > cols {
      welcomelen := cols;
    }
    var padding := (cols - welcomelen) / 2;
    ghost var tilde: string := [];
    ab := ab0;
    if padding != 0 {
      ab := AbAppend(ab, Filler, 1);
      tilde := Filler;
      padding := padding - 1;
    }
    ghost var margin := ab;
    ghost var spaces := padding;
    while padding > 0
      invariant 0 <= padding <= spaces
      invariant ab == margin + Spaces(spaces - padding)
    {
      ghost var before := ab;
      ab := AbAppend(ab, " ", 1);
      SpaceStep(margin, before, ab, spaces - padding);
      padding := padding - 1;
    }
    ghost var padded := ab;
    ab := AbAppend(ab, Welcome, welcomelen);
    WelcomeParts(cols, tilde, spaces);
    Concat3(ab0, margin, padded, ab, tilde, Spaces(spaces), Welcome[..welcomelen]);
  }

  /** One more space after `k` of them. */
  lemma SpaceStep(margin: string, before: string, after: string, k: nat)
    requires before == margin + Spaces(k)
    requires after == before + " "
    ensures after == margin + Spaces(k + 1)
  {
    assert Spaces(k) + " " == Spaces(k + 1);
  }

  /** The welcome line is the tilde when there is any margin, the rest of the margin in spaces, then the text. */
  lemma WelcomeParts(cols: int, tilde: string, spaces: int)
    requires 0 <= cols
    requires var pad := (cols - Min(|Welcome|, cols)) / 2;
      && (pad == 0 ==> tilde == [] && spaces == 0)
      && (pad != 0 ==> tilde == Filler && spaces == pad - 1)
    ensures 0 <= spaces
    ensures WelcomeLine(cols) == tilde + Spaces(spaces) + Welcome[..Min(|Welcome|, cols)]
  {
    if spaces == 0 {
      assert Spaces(0) == [];
    }
  }

  /** One screen line of `editorDrawRows`, before EL and CR LF. */
  method AppendScreenLine(ab0: string, e: Editor, y: int) returns (ab: string)
    requires 0 <= y && 0 <= e.rowoff && 0 <= e.coloff && 0 <= e.screencols
    ensures ab == ab0 + ScreenLine(e, y)
  {
    var filerow := y + e.rowoff;
    if filerow >= |e.rows| {
      if |e.rows| == 0 && y == e.screenrows / 3 {
        ab := AppendWelcome(ab0, e.screencols);
      } else {
        ab := AbAppend(ab0, Filler, 1);
      }
    } else {
      var render := e.rows[filerow].render;
      var len := |render| - e.coloff;
      if len < 0 {
        len := 0;
      }
      if len > e.screencols {
        len := e.screencols;
      }
      var from := if len == 0 then [] else render[e.coloff..];
      ab := AbAppend(ab0, from, len);
      assert ab[|ab0|..] == Window(render, e.coloff, e.screencols);
    }
  }

  /** The loop of `editorDrawRows`: each screen line, then EL, then CR LF. */
  method AppendRows(ab0: string, e: Editor) returns (ab: string)
    requires 0 <= e.rowoff && 0 <= e.coloff && 0 <= e.screencols
    ensures ab == ab0 + DrawRows(e)
  {
    ghost var lines := DrawnLines(e);
    ghost var whole := ab0 + Join(lines);
    ab := ab0;
    var y := 0;
    while y < e.screenrows
      invariant 0 <= y <= |lines|
      invariant ab + Join(lines[y..]) == whole
    {
      ghost var before := ab;
      ab := AppendLine(ab, e, y);
      JoinStep(before, ab, lines, y);
      y := y + 1;
    }
    assert y == |lines|;
    JoinDone(ab, lines, y);
  }

  /** One pass of that loop: the screen line, EL, CR LF. */
  method AppendLine(ab0: string, e: Editor, y: int) returns (ab: string)
    requires 0 <= e.rowoff && 0 <= e.coloff && 0 <= e.screencols
    requires 0 <= y < e.screenrows
    ensures ab == ab0 + (DrawnLines(e)[y] + CrLf())
  {
    ab := AppendScreenLine(ab0, e, y);
    ab := AbAppend(ab, EraseLine(), 3);
    ab := AbAppend(ab, CrLf(), 2);
    assert ab == ab0 + (ScreenLine(e, y) + EraseLine() + CrLf());
  }

  /** Appending line `y` with its CR LF leaves the rest of `Join`'s input to go. */
  lemma JoinStep(before: string, after: string, lines: seq<string>, y: nat)
    requires y < |lines|
    requires after == before + (lines[y] + CrLf())
    ensures after + Join(lines[y + 1..]) == before + Join(lines[y..])
  {
    assert lines[y..][1..] == lines[y + 1..];
  }

  /** Once every line is appended nothing of `Join`'s input is left. */
  lemma JoinDone(ab: string, lines: seq<string>, y: nat)
    requires y == |lines|
    ensures ab + Join(lines[y..]) == ab
  {
    assert lines[y..] == [];
  }

  /**
    `editorDrawStatusBar`: reverse video, the status text, then the
    attributes reset and CR LF.
   */
  method AppendStatusBar(ab0: string, e: Editor) returns (ab: string)
    requires 0 <= e.screencols
    ensures ab == ab0 + DrawStatusBar(e)
  {
    ghost var text := StatusText(StatusLeft(e), StatusRight(e), e.screencols);
    ab := AbAppend(ab0, ReverseVideo(), 4);
    ghost var ab1 := ab;
    ab := AppendStatusText(ab, StatusLeft(e), StatusRight(e), e.screencols);
    ghost var ab2 := ab;
    ab := AbAppend(ab, ResetAttributes(), 3);
    ghost var ab3 := ab;
    ab := AbAppend(ab, CrLf(), 2);
    Concat4(ab0, ab1, ab2, ab3, ab, ReverseVideo(), text, ResetAttributes(), CrLf());
  }

  /**
    The text part of `editorDrawStatusBar`: the left part cut at the right
    edge, then spaces one at a time until the right part exactly fills what
    is left or the line is full.
   */
  method AppendStatusText(ab0: string, status: string, rstatus: string, cols: int) returns (ab: string)
    requires 0 <= cols
    ensures ab == ab0 + StatusText(status, rstatus, cols)
  {
    var len := |status|;
    var rlen := |rstatus|;
    if len > cols {
      len := cols;
    }
    ab := AbAppend(ab0, status, len);
    ghost var start := ab;
    ghost var len0 := len;
    while len < cols
      invariant len0 <= len <= cols
      invariant len0 + rlen <= cols ==> len <= cols - rlen
      invariant ab == start + Spaces(len - len0)
    {
      if cols - len == rlen {
        ab := AbAppend(ab, rstatus, rlen);
        assert ab == start + Spaces(cols - len0 - rlen) + rstatus;
        break;
      } else {
        assert Spaces(len - len0) + " " == Spaces(len + 1 - len0);
        ab := AbAppend(ab, " ", 1);
        len := len + 1;
      }
    }
  }

  /** `editorDrawMessageBar` at time `now`. */
  method AppendMessageBar(ab0: string, e: Editor, now: int) returns (ab: string)
    requires 0 <= e.screencols
    ensures ab == ab0 + DrawMessageBar(e, now)
  {
    ab := AbAppend(ab0, EraseLine(), 3);
    ghost var erased := ab;
    var msglen := |e.statusmsg|;
    if msglen > e.screencols {
      msglen := e.screencols;
    }
    if msglen != 0 && now - e.statustime < MessageSeconds {
      ab := AbAppend(ab, e.statusmsg, msglen);
    }
    assert ab == erased + MessageText(e, now);
    assert erased == ab0 + EraseLine();
  }

  /**
    `editorRefreshScreen` at time `now`: scroll, then fill one buffer, which
    is the frame written to the terminal in a single call.
   */
  method BuildFrame(e: Editor, now: int) returns (s: Editor, ab: string)
    requires Valid(e)
    ensures Frame(s, ab) == RefreshScreen(e, now)
  {
    s := Scroll(e);
    ab := AppendFrame(s, now);
  }

  /** The buffer `editorRefreshScreen` fills for an already scrolled state. */
  method AppendFrame(s: Editor, now: int) returns (ab: string)
    requires 0 <= s.rowoff && 0 <= s.coloff && 0 <= s.screencols
    ensures ab == ComposeFrame(s, now)
  {
    ab := AbAppend([], HideCursor(), 6);
    ab := AbAppend(ab, CursorHome(), 3);
    ghost var home := ab;
    ab := AppendRows(ab, s);
    ghost var rows := ab;
    ab := AppendStatusBar(ab, s);
    ghost var bars := ab;
    ab := AppendLastLine(ab, s, now);
    Concat3(home, rows, bars, ab, DrawRows(s), DrawStatusBar(s), LastLine(s, now));
    assert home == HideCursor() + CursorHome();
  }

  /** The end of `editorRefreshScreen`: the message bar, then the cursor placed and shown. */
  method AppendLastLine(ab0: string, s: Editor, now: int) returns (ab: string)
    requires 0 <= s.screencols
    ensures ab == ab0 + LastLine(s, now)
  {
    ab := AppendMessageBar(ab0, s, now);
    ghost var message := ab;
    var buf := CursorPosition(CursorLine(s), CursorColumn(s));
    ab := AbAppend(ab, buf, |buf|);
    ghost var placed := ab;
    ab := AbAppend(ab, ShowCursor(), 6);
    Concat3(ab0, message, placed, ab, DrawMessageBar(s, now), buf, ShowCursor());
  }
}

=== FILE: ints.dfy ===
/** Small integer helpers shared by the models of both editors. */
module Ints {

  function Min(a: int, b: int): int {
    if a <= b then a else b
  }

  function Max(a: int, b: int): int {
    if a <= b then b else a
  }

  /** How far apart two positions are. */
  function Dist(a: int, b: int): nat {
    if a <= b then b - a else a - b
  }
}

=== FILE: keys.dfy ===
/**
  The key decoder shared by the second and third editor: one logical key per
  call, read from a stream of single-byte `read` results. An escape byte
  starts a short state machine with at most three bytes of lookahead; a
  failed follow-up read or an unknown sequence falls back to the escape key.
 */
module Keys {
  import opened Wrappers

  type byte = b: int | 0 <= b < 256

  const Escape: byte := 0x1B
  const LeftBracket: byte := '[' as int
  const LetterO: byte := 'O' as int
  const Tilde: byte := '~' as int

  /** `CTRL_KEY(k)`: the low five bits of the letter, so Ctrl-Q is 0x11. */
  function CtrlKey(k: byte): byte {
    k % 32
  }

  const CtrlQ: byte := CtrlKey('q' as int)

  /**
    A decoded key: a literal byte, or one of the named keys the source numbers
    from 1000 upwards so that they never clash with a byte.
   */
  datatype Key =
    | Byte(b: byte)
    | ArrowLeft | ArrowRight | ArrowUp | ArrowDown
    | Del | Home | End | PageUp | PageDown

  /**
    One element per `read` call: `Some(b)` when the call delivered byte `b`,
    `None` when it delivered nothing.
   */
  type Input = seq<Option<byte>>

  datatype Decoded = Decoded(key: Key, rest: Input)

  /** One `read` call; an exhausted input reads as a failed call. */
  function Read(input: Input): (Option<byte>, Input) {
    if |input| == 0 then (None, []) else (input[0], input[1..])
  }

  function IsDigitByte(b: byte): bool {
    '0' as int <= b <= '9' as int
  }

  /** The `ESC [ <digit> ~` table. */
  function TildeKey(d: byte): Option<Key> {
    if d == '1' as int then Some(Home)
    else if d == '3' as int then Some(Del)
    else if d == '4' as int then Some(End)
    else if d == '5' as int then Some(PageUp)
    else if d == '6' as int then Some(PageDown)
    else if d == '7' as int then Some(Home)
    else if d == '8' as int then Some(End)
    else None
  }

  /** The `ESC [ <letter>` table. */
  function BracketKey(c: byte): Option<Key> {
    if c == 'A' as int then Some(ArrowUp)
    else if c == 'B' as int then Some(ArrowDown)
    else if c == 'C' as int then Some(ArrowRight)
    else if c == 'D' as int then Some(ArrowLeft)
    else if c == 'H' as int then Some(Home)
    else if c == 'F' as int then Some(End)
    else None
  }

  /** The `ESC O <letter>` table. */
  function SS3Key(c: byte): Option<Key> {
    if c == 'H' as int then Some(Home)
    else if c == 'F' as int then Some(End)
    else None
  }

  /** The decoder's states after the escape byte has been read. */
  function AfterEscape(input: Input): (r: Decoded)
    ensures |input| - 3 <= |r.rest| <= |input|
    ensures r.rest == input[|input| - |r.rest|..]
    ensures |r.rest| < |input| || input == []
  {
    var (s0, in1) := Read(input);
    if s0.None? then Decoded(Byte(Escape), in1)
    else
      var (s1, in2) := Read(in1);
      if s1.None? then Decoded(Byte(Escape), in2)
      else if s0.value == LeftBracket then
        if IsDigitByte(s1.value) then
          var (s2, in3) := Read(in2);
          if s2.None? then Decoded(Byte(Escape), in3)
          else if s2.value == Tilde && TildeKey(s1.value).Some? then Decoded(TildeKey(s1.value).value, in3)
          else Decoded(Byte(Escape), in3)
        else if BracketKey(s1.value).Some? then Decoded(BracketKey(s1.value).value, in2)
        else Decoded(Byte(Escape), in2)
      else if s0.value == LetterO && SS3Key(s1.value).Some? then Decoded(SS3Key(s1.value).value, in2)
      else Decoded(Byte(Escape), in2)
  }

  /**
    `editorReadKey`: failed reads before the first byte are retried; the
    result is `None` only when no byte ever arrives (the source blocks).
   */
  function ReadKey(input: Input): (r: Option<Decoded>)
    ensures r.Some? <==> exists i :: 0 <= i < |input| && input[i].Some?
    ensures r.Some? ==> |r.value.rest| < |input| && r.value.rest == input[|input| - |r.value.rest|..]
    decreases |input|
  {
    if |input| == 0 then None
    else match input[0]
      case None =>
        var r := ReadKey(input[1..]);
        assert forall i :: 1 <= i < |input| ==> input[i] == input[1..][i - 1];
        r
      case Some(c) =>
        if c != Escape then Some(Decoded(Byte(c), input[1..]))
        else Some(AfterEscape(input[1..]))
  }

  // ---------------------------------------------------------------------
  // Reference description of the recognised sequences

  function Two(a: char, b: char): seq<byte>
    requires a as int < 256 && b as int < 256
  {
    [a as int, b as int]
  }

  function Three(a: char, b: char, c: char): seq<byte>
    requires a as int < 256 && b as int < 256 && c as int < 256
  {
    [a as int, b as int, c as int]
  }

  /** The recognised escape sequences, as the bytes that follow ESC. */
  function Table(): map<seq<byte>, Key> {
    map[
      Two('[', 'A') := ArrowUp, Two('[', 'B') := ArrowDown,
      Two('[', 'C') := ArrowRight, Two('[', 'D') := ArrowLeft,
      Two('[', 'H') := Home, Two('[', 'F') := End,
      Two('O', 'H') := Home, Two('O', 'F') := End,
      Three('[', '1', '~') := Home, Three('[', '7', '~') := Home,
      Three('[', '4', '~') := End, Three('[', '8', '~') := End,
      Three('[', '3', '~') := Del,
      Three('[', '5', '~') := PageUp, Three('[', '6', '~') := PageDown
    ]
  }

  /** Whether the next `n` reads all deliver a byte, and if so which bytes. */
  function Delivered(input: Input, n: nat): Option<seq<byte>> {
    if |input| < n || exists i :: 0 <= i < n && input[i].None? then None
    else Some(seq(n, i requires 0 <= i < n && i < |input| && input[i].Some? => input[i].value))
  }

  /** What should follow an escape byte: a table entry, or the escape key itself. */
  function TableDecode(input: Input): Key {
    var two := Delivered(input, 2);
    var three := Delivered(input, 3);
    if two.Some? && two.value in Table() then Table()[two.value]
    else if three.Some? && three.value in Table() then Table()[three.value]
    else Byte(Escape)
  }

  /**
    How many reads follow an escape byte: one when the first fails, two when
    the second fails or the pair cannot begin a `[ <digit> ~` sequence, and
    three otherwise. A read past the end of the input consumes nothing.
   */
  function TableConsumed(input: Input): nat {
    var n :=
      if |input| < 1 || input[0].None? then 1
      else if |input| < 2 || input[1].None? then 2
      else if input[0].value == LeftBracket && IsDigitByte(input[1].value) then 3
      else 2;
    if n < |input| then n else |input|
  }

  lemma TableTwo(a: byte, b: byte)
    ensures [a, b] in Table() <==> (a == LeftBracket && BracketKey(b).Some?) || (a == LetterO && SS3Key(b).Some?)
    ensures a == LeftBracket && BracketKey(b).Some? ==> Table()[[a, b]] == BracketKey(b).value
    ensures a == LetterO && SS3Key(b).Some? ==> Table()[[a, b]] == SS3Key(b).value
  {
  }

  lemma TableThree(a: byte, b: byte, c: byte)
    ensures [a, b, c] in Table() <==> a == LeftBracket && IsDigitByte(b) && c == Tilde && TildeKey(b).Some?
    ensures [a, b, c] in Table() ==> Table()[[a, b, c]] == TildeKey(b).value
  {
  }

  /** A two-byte sequence never continues to a recognised three-byte one, and vice versa. */
  lemma DecoderMatchesTable(input: Input)
    ensures AfterEscape(input).key == TableDecode(input)
    ensures |input| - |AfterEscape(input).rest| == TableConsumed(input)
  {
    AfterEscapeConsumes(input);
    var two := Delivered(input, 2);
    var three := Delivered(input, 3);
    if two.Some? {
      assert two.value == [input[0].value, input[1].value];
      TableTwo(input[0].value, input[1].value);
      if three.Some? {
        assert three.value == [input[0].value, input[1].value, input[2].value];
        TableThree(input[0].value, input[1].value, input[2].value);
      }
    }
  }

  lemma AfterEscapeConsumes(input: Input)
    ensures |input| - |AfterEscape(input).rest| == TableConsumed(input)
  {
    if 1 <= |input| && input[0].Some? && 2 <= |input| && input[1].Some?
      && input[0].value == LeftBracket && IsDigitByte(input[1].value)
    {
      assert |AfterEscape(input).rest| == |input[2..]| - (if |input| > 2 then 1 else 0);
    }
  }

  /** `editorReadKey` on a stream whose first read delivers a byte. */
  lemma ReadKeyFirstByte(input: Input)
    requires 1 <= |input| && input[0].Some?
    ensures ReadKey(input).Some?
    ensures input[0].value != Escape ==> ReadKey(input).value == Decoded(Byte(input[0].value), input[1..])
    ensures input[0].value == Escape ==> ReadKey(input).value.key == TableDecode(input[1..])
    ensures input[0].value == Escape ==> ReadKey(input).value.rest == input[1 + TableConsumed(input[1..])..]
  {
    if input[0].value == Escape {
      var tail := input[1..];
      var d := AfterEscape(tail);
      assert ReadKey(input) == Some(d);
      DecoderMatchesTable(tail);
      assert d.rest == tail[TableConsumed(tail)..];
      assert tail[TableConsumed(tail)..] == input[1 + TableConsumed(tail)..];
    }
  }

  /** Failed reads before the first byte are retried: they change neither the key nor what follows it. */
  lemma {:induction false} ReadKeySkipsFailedReads(input: Input, k: nat)
    requires k < |input| && input[k].Some?
    requires forall i :: 0 <= i < k ==> input[i].None?
    ensures ReadKey(input) == ReadKey(input[k..])
    decreases k
  {
    if k > 0 {
      assert input[0].None?;
      ReadKeySkipsFailedReads(input[1..], k - 1);
      assert input[1..][k - 1..] == input[k..];
    }
  }

  /** One byte sequence that produces each key; the escape key itself needs a failed read after ESC. */
  function Encode(k: Key): Input {
    match k
    case Byte(b) => if b == Escape then [Some(Escape), None] else [Some(b)]
    case ArrowUp => [Some(Escape), Some(LeftBracket), Some('A' as int)]
    case ArrowDown => [Some(Escape), Some(LeftBracket), Some('B' as int)]
    case ArrowRight => [Some(Escape), Some(LeftBracket), Some('C' as int)]
    case ArrowLeft => [Some(Escape), Some(LeftBracket), Some('D' as int)]
    case Home => [Some(Escape), Some(LeftBracket), Some('H' as int)]
    case End => [Some(Escape), Some(LeftBracket), Some('F' as int)]
    case Del => [Some(Escape), Some(LeftBracket), Some('3' as int), Some(Tilde)]
    case PageUp => [Some(Escape), Some(LeftBracket), Some('5' as int), Some(Tilde)]
    case PageDown => [Some(Escape), Some(LeftBracket), Some('6' as int), Some(Tilde)]
  }

  /** Any other byte is its own key. */
  lemma DecodePlainByte(b: byte, rest: Input)
    requires b != Escape
    ensures ReadKey([Some(b)] + rest) == Some(Decoded(Byte(b), rest))
  {
    assert ([Some(b)] + rest)[1..] == rest;
  }

  /** ESC followed by a failed read is the escape key. */
  lemma DecodeLoneEscape(rest: Input)
    ensures ReadKey([Some(Escape), None] + rest) == Some(Decoded(Byte(Escape), rest))
  {
    var input := [Some(Escape), None] + rest;
    assert input[1..][1..] == rest;
  }

  /** `ESC [ <letter>` for a letter of the bracket table. */
  lemma DecodeBracket(c: byte, rest: Input)
    requires BracketKey(c).Some?
    ensures ReadKey([Some(Escape), Some(LeftBracket), Some(c)] + rest) == Some(Decoded(BracketKey(c).value, rest))
  {
    var input := [Some(Escape), Some(LeftBracket), Some(c)] + rest;
    assert input[1..][1..][1..] == rest;
  }

  /** `ESC [ <digit> ~` for a digit of the tilde table. */
  lemma DecodeTilde(d: byte, rest: Input)
    requires IsDigitByte(d) && TildeKey(d).Some?
    ensures ReadKey([Some(Escape), Some(LeftBracket), Some(d), Some(Tilde)] + rest) == Some(Decoded(TildeKey(d).value, rest))
  {
    var input := [Some(Escape), Some(LeftBracket), Some(d), Some(Tilde)] + rest;
    assert input[1..][1..][1..][1..] == rest;
  }

  /** Every key can be typed: decoding its encoding yields it and consumes exactly the encoding. */
  lemma EncodeDecode(k: Key, rest: Input)
    ensures ReadKey(Encode(k) + rest) == Some(Decoded(k, rest))
  {
    match k
    case Byte(b) =>
      if b == Escape {
        DecodeLoneEscape(rest);
      } else {
        DecodePlainByte(b, rest);
      }
    case ArrowUp => DecodeBracket('A' as int, rest);
    case ArrowDown => DecodeBracket('B' as int, rest);
    case ArrowRight => DecodeBracket('C' as int, rest);
    case ArrowLeft => DecodeBracket('D' as int, rest);
    case Home => DecodeBracket('H' as int, rest);
    case End => DecodeBracket('F' as int, rest);
    case Del => DecodeTilde('3' as int, rest);
    case PageUp => DecodeTilde('5' as int, rest);
    case PageDown => DecodeTilde('6' as int, rest);
  }
}

=== FILE: rows.dfy ===
/**
  The row store of the third editor: each loaded line keeps its raw
  characters and a render form with every tab expanded to the next tab stop,
  plus the raw-to-render column mapping that must agree with that expansion.
 */
module Rows {

  /** `TAB_STOP`. */
  const TabStop: nat := 8

  const Tab: char := '\t'

  /** `erow`: `size` is |chars| and `rsize` is |render|. */
  datatype Row = Row(chars: string, render: string) {
    /** The render form is the expansion of the raw characters, as after `editorUpdateRow`. */
    predicate Valid() {
      render == Render(chars)
    }
  }

  function Spaces(n: nat): (r: string)
    ensures |r| == n
    ensures forall i :: 0 <= i < n ==> r[i] == ' '
  {
    seq(n, _ => ' ')
  }

  /** The first tab stop strictly to the right of `col`. */
  function NextTabStop(col: nat): (r: nat)
    ensures col < r <= col + TabStop
    ensures r % TabStop == 0
  {
    (col / TabStop + 1) * TabStop
  }

  function CountTabs(chars: string): nat
    decreases |chars|
  {
    if |chars| == 0 then 0
    else CountTabs(chars[..|chars| - 1]) + (if chars[|chars| - 1] == Tab then 1 else 0)
  }

  /** What one raw character becomes when it is drawn starting at render column `col`. */
  function Expand(c: char, col: nat): string {
    if c == Tab then Spaces(NextTabStop(col) - col) else [c]
  }

  /**
    The render form, built left to right: tabs become spaces up to the next
    tab stop, every other character is kept.
   */
  function Render(chars: string): (r: string)
    ensures forall i :: 0 <= i < |r| ==> r[i] != Tab
    ensures |chars| <= |r| <= |chars| + (TabStop - 1) * CountTabs(chars)
    decreases |chars|
  {
    if |chars| == 0 then []
    else
      var prev := Render(chars[..|chars| - 1]);
      prev + Expand(chars[|chars| - 1], |prev|)
  }

  /** Rendering only ever adds spaces: any other character is in the render form only if it was in the row. */
  lemma {:induction false} RenderAddsOnlySpaces(chars: string, c: char)
    requires c != ' ' && c !in chars
    ensures c !in Render(chars)
    decreases |chars|
  {
    if |chars| > 0 {
      var front := chars[..|chars| - 1];
      assert forall i :: 0 <= i < |front| ==> front[i] == chars[i];
      RenderAddsOnlySpaces(front, c);
      var last := chars[|chars| - 1];
      var prev := Render(front);
      var tail := Expand(last, |prev|);
      assert c !in tail;
      assert Render(chars) == prev + tail;
    }
  }

  /**
    One step of `editorRowCxToRx`: a tab first moves `rx` by
    `(TAB_STOP - 1) - rx % TAB_STOP`, then every character moves it by one.
   */
  function Advance(c: char, rx: int): (r: int)
    ensures rx < r
  {
    (if c == Tab then rx + (TabStop - 1) - rx % TabStop else rx) + 1
  }

  /** From a render column, a tab's step lands on the next tab stop. */
  lemma TabAdvanceIsNextStop(rx: nat)
    ensures Advance(Tab, rx) == NextTabStop(rx)
  {
    assert rx == rx / TabStop * TabStop + rx % TabStop;
  }

  /** `editorRowCxToRx`: the render column of raw column `cx`. */
  function CxToRx(chars: string, cx: int): (rx: int)
    requires 0 <= cx <= |chars|
    ensures cx <= rx
    decreases cx
  {
    if cx == 0 then 0 else Advance(chars[cx - 1], CxToRx(chars, cx - 1))
  }

  /** The render column of a raw column depends only on the characters before it. */
  lemma {:induction false} CxToRxPrefix(chars: string, k: nat, cx: nat)
    requires cx <= k <= |chars|
    ensures CxToRx(chars[..k], cx) == CxToRx(chars, cx)
    decreases cx
  {
    if cx > 0 {
      CxToRxPrefix(chars, k, cx - 1);
    }
  }

  /** The mapping and the expansion agree: rendering the first `k` raw characters fills exactly `CxToRx(k)` columns. */
  lemma {:induction false} RenderWidth(chars: string, k: nat)
    requires k <= |chars|
    ensures |Render(chars[..k])| == CxToRx(chars, k)
    decreases k
  {
    if k > 0 {
      RenderWidth(chars, k - 1);
      assert chars[..k][..k - 1] == chars[..k - 1];
      TabAdvanceIsNextStop(CxToRx(chars, k - 1));
    }
  }

  /** Rendering a longer prefix only appends. */
  lemma {:induction false} RenderPrefix(chars: string, k: nat)
    requires k <= |chars|
    ensures Render(chars[..k]) <= Render(chars)
    decreases |chars| - k
  {
    if k < |chars| {
      RenderPrefix(chars, k + 1);
      assert chars[..k + 1][..k] == chars[..k];
    } else {
      assert chars[..k] == chars;
    }
  }

  /** The start and the end of the raw row map to the start and the end of the render form. */
  lemma EndOfRowMapsToRenderSize(chars: string)
    ensures CxToRx(chars, 0) == 0
    ensures CxToRx(chars, |chars|) == |Render(chars)|
  {
    RenderWidth(chars, |chars|);
    assert chars[..|chars|] == chars;
  }

  /** The raw-to-render mapping is strictly increasing. */
  lemma {:induction false} CxToRxStrictlyIncreasing(chars: string, i: int, j: int)
    requires 0 <= i < j <= |chars|
    ensures CxToRx(chars, i) < CxToRx(chars, j)
    decreases j - i
  {
    if i + 1 < j {
      CxToRxStrictlyIncreasing(chars, i, j - 1);
    }
  }

  /**
    Where raw character `j` lands in the render form: a non-tab character is
    copied to render column `CxToRx(j)`; a tab fills the columns from there up
    to the next tab stop with spaces.
   */
  lemma RenderPlacement(chars: string, j: nat)
    requires j < |chars|
    ensures var r := Render(chars); var a := CxToRx(chars, j); var b := CxToRx(chars, j + 1);
      && b <= |r|
      && (chars[j] != Tab ==> b == a + 1 && r[a] == chars[j])
      && (chars[j] == Tab ==> b == NextTabStop(a) && forall i :: a <= i < b ==> r[i] == ' ')
  {
    RenderWidth(chars, j);
    RenderWidth(chars, j + 1);
    RenderPrefix(chars, j + 1);
    assert chars[..j + 1][..j] == chars[..j];
    TabAdvanceIsNextStop(CxToRx(chars, j));
  }

  /** The row `editorUpdateRow` leaves behind for `chars`. */
  function Fresh(chars: string): (r: Row)
    ensures r.chars == chars && r.Valid()
  {
    Row(chars, Render(chars))
  }

  /** Between a column and the next tab stop there is no other multiple of the tab stop. */
  lemma NoStopBefore(p: nat, m: nat)
    requires p < m <= NextTabStop(p) && m % TabStop == 0
    ensures m == NextTabStop(p)
  {
  }

  /** The first loop of `editorUpdateRow`: count the tabs, to size the render buffer. */
  method CountRowTabs(chars: string) returns (tabs: nat)
    ensures tabs == CountTabs(chars)
  {
    tabs := 0;
    var j := 0;
    while j < |chars|
      invariant 0 <= j <= |chars|
      invariant tabs == CountTabs(chars[..j])
    {
      assert chars[..j + 1][..j] == chars[..j];
      if chars[j] == Tab {
        tabs := tabs + 1;
      }
      j := j + 1;
    }
    assert chars[..j] == chars;
  }

  /** A tab in `editorUpdateRow`: one space, then more until the column is a multiple of the tab stop. */
  method AppendTab(prev: string) returns (render: string)
    ensures render == prev + Expand(Tab, |prev|)
  {
    render := prev + [' '];
    while |render| % TabStop != 0
      invariant |prev| < |render| <= NextTabStop(|prev|)
      invariant render == prev + Spaces(|render| - |prev|)
      decreases NextTabStop(|prev|) - |render|
    {
      render := render + [' '];
    }
    NoStopBefore(|prev|, |render|);
  }

  /**
    `editorUpdateRow`: copy the characters and expand each tab. The result
    never outgrows the buffer the source allocates from the tab count,
    `size + tabs * (TAB_STOP - 1)` characters before the terminator.
   */
  method UpdateRow(row: Row) returns (r: Row)
    ensures r.chars == row.chars && r.Valid()
    ensures |r.chars| <= |r.render| <= |r.chars| + (TabStop - 1) * CountTabs(r.chars)
  {
    var chars := row.chars;
    var tabs := CountRowTabs(chars);
    var render: string := [];
    var j := 0;
    while j < |chars|
      invariant 0 <= j <= |chars|
      invariant render == Render(chars[..j])
    {
      assert chars[..j + 1][..j] == chars[..j];
      if chars[j] == Tab {
        render := AppendTab(render);
      } else {
        render := render + [chars[j]];
      }
      j := j + 1;
    }
    assert chars[..j] == chars;
    assert |render| <= |chars| + (TabStop - 1) * tabs;
    r := Row(chars, render);
  }

  /** A line ending byte, as the loader strips them. */
  predicate IsLineEnd(c: char) {
    c == '\n' || c == '\r'
  }

  /** The loader drops every trailing CR and LF: what is left is the longest prefix not ending in one. */
  function StripLineEnding(line: string): (s: string)
    ensures s <= line
    ensures forall i :: |s| <= i < |line| ==> IsLineEnd(line[i])
    ensures |s| == 0 || !IsLineEnd(s[|s| - 1])
    decreases |line|
  {
    if |line| > 0 && IsLineEnd(line[|line| - 1]) then StripLineEnding(line[..|line| - 1]) else line
  }

  /** A line as `getline` delivers it holds a line feed at most as its last byte. */
  predicate IsGetlineLine(line: string) {
    forall i :: 0 <= i < |line| - 1 ==> line[i] != '\n'
  }

  lemma StrippedHasNoNewline(line: string)
    requires IsGetlineLine(line)
    ensures '\n' !in StripLineEnding(line)
  {
  }

  /** `editorAppendRow`: one more row, holding exactly `s`, with its render form already computed. */
  function AppendRow(rows: seq<Row>, s: string): (r: seq<Row>)
    ensures |r| == |rows| + 1
    ensures r[..|rows|] == rows
    ensures r[|rows|].chars == s && r[|rows|].Valid()
  {
    rows + [Fresh(s)]
  }

  /** The loop of `editorOpen`: every line, stripped of its line ending, appended in file order. */
  function Load(rows: seq<Row>, lines: seq<string>): (r: seq<Row>)
    ensures |r| == |rows| + |lines|
    ensures r[..|rows|] == rows
    decreases |lines|
  {
    if |lines| == 0 then rows
    else
      var next := AppendRow(rows, StripLineEnding(lines[0]));
      var r := Load(next, lines[1..]);
      assert r[..|rows|] == r[..|next|][..|rows|];
      r
  }

  /** Row `|rows| + i` after loading holds line `i` without its line ending, rendered. */
  lemma {:induction false} LoadedRows(rows: seq<Row>, lines: seq<string>)
    ensures forall i :: 0 <= i < |lines| ==>
      Load(rows, lines)[|rows| + i].chars == StripLineEnding(lines[i]) && Load(rows, lines)[|rows| + i].Valid()
    decreases |lines|
  {
    if |lines| > 0 {
      var next := AppendRow(rows, StripLineEnding(lines[0]));
      var r := Load(rows, lines);
      assert r == Load(next, lines[1..]);
      LoadedRows(next, lines[1..]);
      forall i | 0 <= i < |lines|
        ensures r[|rows| + i].chars == StripLineEnding(lines[i]) && r[|rows| + i].Valid()
      {
        if i == 0 {
          assert r[|rows|] == r[..|next|][|rows|];
        } else {
          assert lines[1..][i - 1] == lines[i];
          assert r[|next| + (i - 1)] == r[|rows| + i];
        }
      }
    }
  }

  /** Rows loaded from `getline` lines never contain a line feed. */
  lemma LoadedRowsHaveNoNewline(lines: seq<string>)
    requires forall i :: 0 <= i < |lines| ==> IsGetlineLine(lines[i])
    ensures forall y :: 0 <= y < |Load([], lines)| ==> '\n' !in Load([], lines)[y].chars
  {
    var r := Load([], lines);
    LoadedRows([], lines);
    forall y | 0 <= y < |r|
      ensures '\n' !in r[y].chars
    {
      assert r[0 + y].chars == StripLineEnding(lines[y]);
      StrippedHasNoNewline(lines[y]);
    }
  }
}

=== FILE: screen.dfy ===
/**
  How the third editor draws a frame: the text rows seen through the
  viewport, the welcome banner of an empty buffer, the reverse-video status
  bar, the timed message bar, and the cursor placement that ends the frame.
 */
module Screen {
  import opened Wrappers
  import opened Decimal
  import opened Terminal
  import opened Rows
  import opened Ints
  import opened Viewer

  const Version: string := "0.0.1"

  /** The banner text, spelled as the program spells it. */
  const Welcome: string := "wlecome editor -- version " + Version

  /** A status message is shown for this many seconds after it was set. */
  const MessageSeconds: int := 5

  /** `statusmsg` is an 80-byte buffer, so a message keeps at most 79 characters. */
  const MessageCapacity: nat := 79

  /** Tildes mark the lines below the end of the buffer. */
  const Filler: string := "~"

  /**
    The part of a render line that a window of `cols` columns starting at
    column `coloff` shows: consecutive characters from `coloff` on, cut only
    by the window's right edge or the end of the line.
   */
  function Window(render: string, coloff: int, cols: int): (r: string)
    requires 0 <= coloff && 0 <= cols
    ensures |r| <= cols
    ensures |r| == 0 || coloff + |r| <= |render|
    ensures forall x :: 0 <= x < |r| ==> r[x] == render[coloff + x]
    ensures |r| == cols || coloff + |r| >= |render|
  {
    var len := Max(0, Min(|render| - coloff, cols));
    if len == 0 then [] else render[coloff .. coloff + len]
  }

  /**
    The banner line: as much of the welcome text as fits, centred, with the
    left margin starting with a tilde like every other empty line.
   */
  function WelcomeLine(cols: int): (r: string)
    requires 0 <= cols
    ensures |r| <= cols
    ensures var shown := Min(|Welcome|, cols); var pad := (cols - shown) / 2;
      && |r| == pad + shown
      && r[pad..] == Welcome[..shown]
      && 0 <= (cols - |r|) - pad <= 1
      && (pad > 0 ==> r[0] == '~' && forall i :: 1 <= i < pad ==> r[i] == ' ')
  {
    var shown := Min(|Welcome|, cols);
    var pad := (cols - shown) / 2;
    var margin := if pad > 0 then Filler + Spaces(pad - 1) else [];
    margin + Welcome[..shown]
  }

  /** What the loop of `editorDrawRows` writes for screen line `y`, before EL and CR LF. */
  function ScreenLine(e: Editor, y: int): (r: string)
    requires 0 <= y && 0 <= e.rowoff && 0 <= e.coloff && 0 <= e.screencols
    ensures y + e.rowoff < |e.rows| ==> var render := e.rows[y + e.rowoff].render;
      && |r| == Max(0, Min(|render| - e.coloff, e.screencols))
      && forall x :: 0 <= x < |r| ==> r[x] == render[e.coloff + x]
    ensures y + e.rowoff >= |e.rows| ==>
      r == (if |e.rows| == 0 && y == e.screenrows / 3 then WelcomeLine(e.screencols) else Filler)
  {
    var filerow := y + e.rowoff;
    if filerow >= |e.rows| then
      if |e.rows| == 0 && y == e.screenrows / 3 then WelcomeLine(e.screencols) else Filler
    else Window(e.rows[filerow].render, e.coloff, e.screencols)
  }

  /** One line per screen row, top to bottom, each with the sequence that erases the rest of it. */
  function DrawnLines(e: Editor): (r: seq<string>)
    requires 0 <= e.rowoff && 0 <= e.coloff && 0 <= e.screencols
    ensures |r| == Max(0, e.screenrows)
    ensures forall y :: 0 <= y < |r| ==> r[y] == ScreenLine(e, y) + EraseLine()
  {
    var n := if e.screenrows < 0 then 0 else e.screenrows;
    seq(n, y requires 0 <= y => ScreenLine(e, y) + EraseLine())
  }

  /** `editorDrawRows`: one drawn line per screen row, each ended by CR LF. */
  function DrawRows(e: Editor): (r: string)
    requires 0 <= e.rowoff && 0 <= e.coloff && 0 <= e.screencols
    ensures r == [] <==> e.screenrows <= 0
    ensures 0 < e.screenrows ==> |r| >= 2 && r[|r| - 2..] == CrLf()
  {
    JoinEnds(DrawnLines(e));
    Join(DrawnLines(e))
  }

  /** No row of the buffer holds a line feed, as is the case for rows read with `getline`. */
  predicate RowsOnOneLine(e: Editor) {
    forall y :: 0 <= y < |e.rows| ==> '\n' !in e.rows[y].chars
  }

  /** A row seen through the window shows no line feed when the row holds none. */
  lemma WindowIsOneLine(row: Row, coloff: int, cols: int)
    requires row.Valid() && '\n' !in row.chars && 0 <= coloff && 0 <= cols
    ensures '\n' !in Window(row.render, coloff, cols)
  {
    RenderAddsOnlySpaces(row.chars, '\n');
    var w := Window(row.render, coloff, cols);
    assert forall x :: 0 <= x < |w| ==> w[x] != '\n';
  }

  lemma WelcomeIsOneLine(cols: int)
    requires 0 <= cols
    ensures '\n' !in WelcomeLine(cols)
  {
    var w := WelcomeLine(cols);
    var pad := (cols - Min(|Welcome|, cols)) / 2;
    assert w == w[..pad] + w[pad..];
    assert '\n' !in w[pad..];
  }

  /** A screen line never spills onto the next terminal line. */
  lemma ScreenLineIsOneLine(e: Editor, y: int)
    requires Valid(e) && RowsOnOneLine(e) && 0 <= y
    ensures '\n' !in ScreenLine(e, y) + EraseLine()
  {
    var filerow := y + e.rowoff;
    var line := ScreenLine(e, y);
    if filerow < |e.rows| {
      assert line == Window(e.rows[filerow].render, e.coloff, e.screencols);
      WindowIsOneLine(e.rows[filerow], e.coloff, e.screencols);
    } else if |e.rows| == 0 && y == e.screenrows / 3 {
      assert line == WelcomeLine(e.screencols);
      WelcomeIsOneLine(e.screencols);
    } else {
      assert line == Filler;
    }
    assert '\n' !in EraseLine();
  }

  /**
    The terminal shows what `DrawRows` writes as one line per screen row,
    in order, and whatever follows starts on a fresh line.
   */
  lemma DrawRowsLines(e: Editor, tail: string)
    requires Valid(e) && RowsOnOneLine(e)
    ensures Split(DrawRows(e) + tail) == DrawnLines(e) + Split(tail)
  {
    var lines := DrawnLines(e);
    forall i | 0 <= i < |lines|
      ensures '\n' !in lines[i]
    {
      ScreenLineIsOneLine(e, i);
    }
    SplitJoin(lines, tail);
  }

  /** `%.20s` of the file name, or the placeholder when no file is open. */
  function FileLabel(filename: Option<string>): (r: string)
    ensures |r| <= 20
    ensures filename.None? ==> r == "[No Name]"
    ensures filename.Some? ==> r <= filename.value && |r| == Min(20, |filename.value|)
  {
    match filename
    case None => "[No Name]"
    case Some(name) => name[..Min(20, |name|)]
  }

  /** The left part of the status bar: file and number of lines. */
  function StatusLeft(e: Editor): string {
    FileLabel(e.filename) + " - " + IntToString(|e.rows|) + " lines"
  }

  /** The right part: the 1-based cursor row over the number of lines. */
  function StatusRight(e: Editor): string {
    IntToString(e.cy + 1) + "/" + IntToString(|e.rows|)
  }

  /**
    The padding loop of `editorDrawStatusBar`, from column `len` on: a space
    per step until either the right part exactly fills what is left, or the
    line is full.
   */
  function Pad(len: int, cols: int, right: string): (r: string)
    ensures len <= cols && |right| <= cols - len ==> r == Spaces(cols - len - |right|) + right
    ensures len <= cols < len + |right| ==> r == Spaces(cols - len)
    ensures cols < len ==> r == []
    decreases cols - len
  {
    if len >= cols then []
    else if cols - len == |right| then right
    else " " + Pad(len + 1, cols, right)
  }

  /**
    The text of a status bar `cols` wide: the left part cut at the right
    edge, and the right part flush against the right edge when it fits
    beside the left part, and left out otherwise.
   */
  function StatusText(left: string, right: string, cols: int): (r: string)
    requires 0 <= cols
    ensures |r| == cols
    ensures var shown := Min(|left|, cols);
      && (shown + |right| <= cols ==> r == left[..shown] + Spaces(cols - shown - |right|) + right)
      && (cols < shown + |right| ==> r == left[..shown] + Spaces(cols - shown))
  {
    var len := Min(|left|, cols);
    left[..len] + Pad(len, cols, right)
  }

  /** The status bar in reverse video. */
  function StatusLine(e: Editor): (r: string)
    requires 0 <= e.screencols
    ensures |r| == |ReverseVideo()| + e.screencols + |ResetAttributes()|
    ensures r[..|ReverseVideo()|] == ReverseVideo() && r[|r| - |ResetAttributes()|..] == ResetAttributes()
  {
    ReverseVideo() + StatusText(StatusLeft(e), StatusRight(e), e.screencols) + ResetAttributes()
  }

  /** `editorDrawStatusBar`: the status bar on a line of its own. */
  function DrawStatusBar(e: Editor): (r: string)
    requires 0 <= e.screencols
    ensures |r| == |ReverseVideo()| + e.screencols + |ResetAttributes()| + 2
    ensures r[|r| - 2..] == CrLf()
  {
    StatusLine(e) + CrLf()
  }

  /**
    What the message bar shows at time `now`: the start of the message, as
    much as the screen is wide, while the message is younger than five
    seconds, and nothing otherwise.
   */
  function MessageText(e: Editor, now: int): (r: string)
    requires 0 <= e.screencols
    ensures r <= e.statusmsg && |r| <= e.screencols
    ensures r != [] <==> e.statusmsg != [] && 0 < e.screencols && now - e.statustime < MessageSeconds
    ensures r != [] ==> |r| == Min(|e.statusmsg|, e.screencols)
  {
    var msglen := Min(|e.statusmsg|, e.screencols);
    if msglen != 0 && now - e.statustime < MessageSeconds then e.statusmsg[..msglen] else []
  }

  /** `editorDrawMessageBar`: the last line is erased, then the message drawn. */
  function DrawMessageBar(e: Editor, now: int): (r: string)
    requires 0 <= e.screencols
    ensures |EraseLine()| <= |r| <= |EraseLine()| + e.screencols
    ensures r[..|EraseLine()|] == EraseLine()
    ensures r[|EraseLine()|..] <= e.statusmsg
  {
    EraseLine() + MessageText(e, now)
  }

  /**
    `editorSetStatusMessage` with the message already formatted: it is cut
    to what the buffer holds and stamped with the current time.
   */
  function SetStatusMessage(e: Editor, msg: string, now: int): (r: Editor)
    ensures r.statusmsg <= msg && |r.statusmsg| == Min(|msg|, MessageCapacity)
    ensures r.statustime == now
    ensures r == e.(statusmsg := r.statusmsg, statustime := r.statustime)
    ensures Valid(e) ==> Valid(r)
  {
    e.(statusmsg := msg[..Min(|msg|, MessageCapacity)], statustime := now)
  }

  /** A message that fits is shown in full for five seconds after it is set, and then no more. */
  lemma MessageLifetime(e: Editor, msg: string, stamp: int, now: int)
    requires 0 < |msg| <= MessageCapacity && |msg| <= e.screencols
    ensures var r := SetStatusMessage(e, msg, stamp);
      && (now - stamp < MessageSeconds ==> MessageText(r, now) == msg)
      && (now - stamp >= MessageSeconds ==> MessageText(r, now) == [])
  {
  }

  /** One frame: the state after scrolling and the bytes written to the terminal. */
  datatype Frame = Frame(state: Editor, output: string)

  /** The line and column of the cursor on the screen, both 1-based. */
  function CursorLine(s: Editor): int { s.cy - s.rowoff + 1 }
  function CursorColumn(s: Editor): int { s.rx - s.coloff + 1 }

  /**
    `editorRefreshScreen` at time `now`: scroll, then hide the cursor, draw
    from the home position, and put the cursor back where it belongs. That
    place is always inside the text window.
   */
  function RefreshScreen(e: Editor, now: int): (r: Frame)
    requires Valid(e)
    ensures r.state == Scroll(e) && Valid(r.state)
    ensures 1 <= CursorLine(r.state) <= e.screenrows && 1 <= CursorColumn(r.state) <= e.screencols
    ensures r.state.rowoff <= |r.state.rows|
  {
    var s := Scroll(e);
    Frame(s, ComposeFrame(s, now))
  }

  /** The bytes of a frame for an already scrolled state. */
  function ComposeFrame(s: Editor, now: int): (r: string)
    requires 0 <= s.rowoff && 0 <= s.coloff && 0 <= s.screencols
    ensures |r| >= |HideCursor()| + |ShowCursor()|
    ensures r[..|HideCursor()|] == HideCursor() && r[|r| - |ShowCursor()|..] == ShowCursor()
  {
    var middle := CursorHome() + DrawRows(s) + DrawStatusBar(s) + DrawMessageBar(s, now) + CursorPosition(CursorLine(s), CursorColumn(s));
    Framed(HideCursor(), middle, ShowCursor());
    Regroup(HideCursor(), CursorHome(), DrawRows(s), DrawStatusBar(s),
      DrawMessageBar(s, now), CursorPosition(CursorLine(s), CursorColumn(s)), ShowCursor());
    HideCursor() + CursorHome() + DrawRows(s) + DrawStatusBar(s) + LastLine(s, now)
  }

  /** The message bar, then the cursor placed and shown again. */
  function LastLine(s: Editor, now: int): string
    requires 0 <= s.screencols
  {
    DrawMessageBar(s, now) + CursorPosition(CursorLine(s), CursorColumn(s)) + ShowCursor()
  }

  lemma StatusTextIsOneLine(left: string, right: string, cols: int)
    requires 0 <= cols && '\n' !in left && '\n' !in right
    ensures '\n' !in StatusText(left, right, cols)
  {
    var shown := Min(|left|, cols);
    assert '\n' !in left[..shown];
    var fill := if shown + |right| <= cols then Spaces(cols - shown - |right|) + right else Spaces(cols - shown);
    assert '\n' !in fill;
    assert StatusText(left, right, cols) == left[..shown] + fill;
  }

  /** The status bar stays on one line when the file name does. */
  lemma StatusIsOneLine(e: Editor)
    requires 0 <= e.screencols
    requires e.filename.Some? ==> '\n' !in e.filename.value
    ensures '\n' !in StatusLine(e)
  {
    NumeralIsOneLine(|e.rows|);
    NumeralIsOneLine(e.cy + 1);
    assert '\n' !in FileLabel(e.filename);
    StatusTextIsOneLine(StatusLeft(e), StatusRight(e), e.screencols);
  }

  /** Where the terminal breaks a frame: after each drawn row and after the status bar. */
  lemma {:induction false} SplitFrame(whole: string, home: string, drawn: seq<string>, status: string, last: string)
    requires 1 <= |drawn|
    requires '\n' !in home && '\n' !in status && '\n' !in last
    requires forall i :: 0 <= i < |drawn| ==> '\n' !in drawn[i]
    requires whole == home + Join(drawn) + (status + CrLf()) + last
    ensures var lines := Split(whole);
      && |lines| == |drawn| + 2
      && lines[0] == home + drawn[0]
      && (forall y :: 1 <= y < |drawn| ==> lines[y] == drawn[y])
      && lines[|drawn|] == status
      && lines[|drawn| + 1] == last
  {
    var tail := status + CrLf() + last;
    var rest := Join(drawn[1..]) + tail;
    assert home + Join(drawn) + (status + CrLf()) + last == (home + drawn[0]) + CrLf() + rest;
    SplitLine(home + drawn[0], rest);
    SplitJoin(drawn[1..], tail);
    SplitLine(status, last);
    SplitSingleLine(last);
    var lines := Split(whole);
    assert lines == [home + drawn[0]] + drawn[1..] + [status, last];
    forall y | 1 <= y < |drawn|
      ensures lines[y] == drawn[y]
    {
      assert lines[y] == drawn[1..][y - 1];
    }
  }

  /**
    A frame fills `screenrows + 2` terminal lines: one per text row, the
    first preceded by the cursor-hiding and homing sequences, then the
    status bar, then the message bar, after which the cursor is placed.
    The text window is as tall as the whole terminal, so the two bars fall
    below it.
   */
  lemma FrameLines(s: Editor, now: int)
    requires Valid(s) && RowsOnOneLine(s)
    requires s.filename.Some? ==> '\n' !in s.filename.value
    requires '\n' !in s.statusmsg
    ensures var lines := Split(ComposeFrame(s, now)); var drawn := DrawnLines(s);
      && |lines| == s.screenrows + 2
      && lines[0] == HideCursor() + CursorHome() + drawn[0]
      && (forall y :: 1 <= y < s.screenrows ==> lines[y] == drawn[y])
      && lines[s.screenrows] == StatusLine(s)
      && lines[s.screenrows + 1] == LastLine(s, now)
  {
    DrawnLinesAreOneLine(s);
    StatusIsOneLine(s);
    LastLineIsOneLine(s, now);
    FrameParts(s, now);
    var drawn := DrawnLines(s);
    assert |drawn| == s.screenrows;
    SplitFrame(ComposeFrame(s, now), HideCursor() + CursorHome(), drawn, StatusLine(s), LastLine(s, now));
    var lines := Split(ComposeFrame(s, now));
    forall y | 1 <= y < s.screenrows
      ensures lines[y] == drawn[y]
    {
    }
  }

  lemma FrameParts(s: Editor, now: int)
    requires 0 <= s.rowoff && 0 <= s.coloff && 0 <= s.screencols
    ensures ComposeFrame(s, now)
      == HideCursor() + CursorHome() + Join(DrawnLines(s)) + (StatusLine(s) + CrLf()) + LastLine(s, now)
  {
  }

  lemma DrawnLinesAreOneLine(s: Editor)
    requires Valid(s) && RowsOnOneLine(s)
    ensures forall i :: 0 <= i < |DrawnLines(s)| ==> '\n' !in DrawnLines(s)[i]
  {
    forall i | 0 <= i < |DrawnLines(s)|
      ensures '\n' !in DrawnLines(s)[i]
    {
      ScreenLineIsOneLine(s, i);
    }
  }

  lemma LastLineIsOneLine(s: Editor, now: int)
    requires 0 <= s.screencols && '\n' !in s.statusmsg
    ensures '\n' !in LastLine(s, now)
  {
    CursorPositionIsOneLine(CursorLine(s), CursorColumn(s));
    assert '\n' !in MessageText(s, now);
  }
}

=== FILE: session.dfy ===
/**
  The main loop of the third editor: start-up, then a frame before every
  key, until Ctrl-Q. Bytes come from an input stream and the clock is a
  parameter.
 */
module Session {
  import opened Wrappers
  import opened Keys
  import opened Rows
  import opened Viewer
  import opened Screen
  import opened Terminal

  const Help: string := "HELP: Ctrl-Q = quit"

  /**
    `main` before its loop: the editor is initialised for the window size,
    the file named on the command line (if any) is loaded from its
    `getline` lines, and the help message is set at time `now`.
   */
  function Start(screenrows: int, screencols: int, file: Option<(string, seq<string>)>, now: int): (e: Editor)
    ensures 1 <= screenrows && 1 <= screencols ==> Valid(e)
    ensures e.cx == 0 && e.cy == 0 && e.rowoff == 0 && e.coloff == 0
    ensures e.screenrows == screenrows && e.screencols == screencols
    ensures e.statusmsg == Help && e.statustime == now
    ensures file.None? ==> e.filename == None && e.rows == []
    ensures file.Some? ==> e.filename == Some(file.value.0) && |e.rows| == |file.value.1|
    ensures file.Some? ==> forall i :: 0 <= i < |e.rows| ==> e.rows[i].chars == StripLineEnding(file.value.1[i])
  {
    var e := InitEditor(screenrows, screencols);
    var e := if file.Some? then Open(e, file.value.0, file.value.1) else e;
    SetStatusMessage(e, Help, now)
  }

  /**
    `initEditor` with its size check, then `Start`: a window that is refused
    ends the program before anything is drawn (`die("getWindowSize")`). The
    check is the intended one, `Viewer.WindowSize`, so every editor that
    starts is valid and can enter the loop.
   */
  function Launch(ws: Option<(nat, nat)>, file: Option<(string, seq<string>)>, now: int): (r: Option<Editor>)
    ensures r.None? <==> ws.None? || ws.value.0 == 0 || ws.value.1 == 0
    ensures r.Some? ==> Valid(r.value)
    ensures r.Some? ==> r.value.screenrows == ws.value.0 && r.value.screencols == ws.value.1
    ensures r.Some? ==> r.value.cx == 0 && r.value.cy == 0 && r.value.statusmsg == Help
  {
    match WindowSize(ws)
    case None => None
    case Some(size) => Some(Start(size.0, size.1, file, now))
  }

  /** What a run of the loop shows and how it ends. */
  datatype Trace = Trace(frames: seq<string>, outcome: Reaction)

  /**
    The loop `while (1) { editorRefreshScreen(); editorProcessKeypress(); }`
    on the keys decoded from `input`, with the clock reading `now`
    throughout. A frame is drawn before every key; the run ends at Ctrl-Q,
    or when the input holds no further byte, where the program would wait.
    Between keys the editor stays valid.
   */
  function Run(e: Editor, input: Input, now: int): (t: Trace)
    requires Valid(e)
    ensures 1 <= |t.frames|
    ensures t.frames[0] == RefreshScreen(e, now).output
    ensures t.outcome.Continue? ==> Valid(t.outcome.next)
    ensures t.outcome.Quit? ==> t.outcome.output == EraseDisplay() + CursorHome()
    decreases |input|
  {
    var f := RefreshScreen(e, now);
    match ReadKey(input)
    case None => Trace([f.output], Continue(f.state))
    case Some(d) =>
      match ProcessKeypress(f.state, d.key)
      case Quit(out) => Trace([f.output], Quit(out))
      case Continue(next) =>
        var t := Run(next, d.rest, now);
        Trace([f.output] + t.frames, t.outcome)
  }

  /** Ctrl-Q ends the run at once: one frame, then the screen is cleared, whatever input follows. */
  lemma QuitStopsTheRun(e: Editor, rest: Input, now: int)
    requires Valid(e)
    ensures Run(e, Encode(Byte(CtrlQ)) + rest, now)
      == Trace([RefreshScreen(e, now).output], Quit(EraseDisplay() + CursorHome()))
  {
    EncodeDecode(Byte(CtrlQ), rest);
  }

  /** A key other than Ctrl-Q leads to one frame, the key's effect, and the run on the rest. */
  lemma RunOneKey(e: Editor, k: Key, rest: Input, now: int)
    requires Valid(e) && k != Byte(CtrlQ)
    ensures var f := RefreshScreen(e, now); var next := ProcessKeypress(f.state, k).next;
      Run(e, Encode(k) + rest, now) == Trace([f.output] + Run(next, rest, now).frames, Run(next, rest, now).outcome)
  {
    EncodeDecode(k, rest);
  }
}

=== FILE: skeleton.dfy ===
/**
  The second editor: no text yet, a screen of `*` marker lines and a cursor
  that moves inside the window. It shares the key decoder and the terminal
  sequences with the third editor.
 */
module Skeleton {
  import opened Keys
  import opened Terminal
  import opened Ints

  /** `struct editorConfig` of the second editor, without the saved terminal mode. */
  datatype Cursor = Cursor(cx: int, cy: int, screenrows: int, screencols: int)

  /** The cursor is on the screen. */
  predicate InBounds(c: Cursor) {
    0 <= c.cx < c.screencols && 0 <= c.cy < c.screenrows
  }

  /** `initEditor`, with the window size as parameters. */
  function InitEditor(screenrows: int, screencols: int): (c: Cursor)
    ensures c.cx == 0 && c.cy == 0 && c.screenrows == screenrows && c.screencols == screencols
    ensures InBounds(c) <==> 1 <= screenrows && 1 <= screencols
  {
    Cursor(0, 0, screenrows, screencols)
  }

  /**
    `editorMoveCursor`: one step in the arrow's direction unless the cursor
    is already at that edge. Only the four arrows move it, by one cell at
    most, and never off the screen.
   */
  function MoveCursor(c: Cursor, key: Key): (r: Cursor)
    ensures r.screenrows == c.screenrows && r.screencols == c.screencols
    ensures Dist(r.cx, c.cx) + Dist(r.cy, c.cy) <= 1
    ensures !(key.ArrowLeft? || key.ArrowRight? || key.ArrowUp? || key.ArrowDown?) ==> r == c
    ensures InBounds(c) ==> InBounds(r)
  {
    match key
    case ArrowLeft => if c.cx != 0 then c.(cx := c.cx - 1) else c
    case ArrowRight => if c.cx != c.screencols - 1 then c.(cx := c.cx + 1) else c
    case ArrowUp => if c.cy != 0 then c.(cy := c.cy - 1) else c
    case ArrowDown => if c.cy != c.screenrows - 1 then c.(cy := c.cy + 1) else c
    case _ => c
  }

  /** On the screen, each arrow is a step clamped to the screen's edges. */
  lemma MoveIsClampedStep(c: Cursor)
    requires InBounds(c)
    ensures MoveCursor(c, ArrowLeft) == c.(cx := Max(c.cx - 1, 0))
    ensures MoveCursor(c, ArrowRight) == c.(cx := Min(c.cx + 1, c.screencols - 1))
    ensures MoveCursor(c, ArrowUp) == c.(cy := Max(c.cy - 1, 0))
    ensures MoveCursor(c, ArrowDown) == c.(cy := Min(c.cy + 1, c.screenrows - 1))
  {
  }

  /** `n` repetitions of one arrow key. */
  function Repeat(c: Cursor, key: Key, n: nat): (r: Cursor)
    ensures r.screenrows == c.screenrows && r.screencols == c.screencols
    ensures InBounds(c) ==> InBounds(r)
    decreases n
  {
    if n == 0 then c else Repeat(MoveCursor(c, key), key, n - 1)
  }

  /** `n` UP steps rise `n` rows but stop at the top; `n` DOWN steps stop at the bottom. */
  lemma {:induction false} RepeatVertical(c: Cursor, n: nat)
    requires InBounds(c)
    ensures Repeat(c, ArrowUp, n) == c.(cy := Max(c.cy - n, 0))
    ensures Repeat(c, ArrowDown, n) == c.(cy := Min(c.cy + n, c.screenrows - 1))
    decreases n
  {
    if n > 0 {
      MoveIsClampedStep(c);
      RepeatVertical(MoveCursor(c, ArrowUp), n - 1);
      RepeatVertical(MoveCursor(c, ArrowDown), n - 1);
    }
  }

  /** What a key press does: keep running, or clear the screen and quit. */
  datatype Outcome = Running(next: Cursor) | Exit(output: string)

  /** `editorProcessKeypress` for an already decoded key. */
  function ProcessKeypress(c: Cursor, key: Key): (r: Outcome)
    ensures r.Exit? <==> key == Byte(CtrlQ)
    ensures r.Exit? ==> r.output == EraseDisplay() + CursorHome()
    ensures r.Running? ==> r.next.screenrows == c.screenrows && r.next.screencols == c.screencols
    ensures r.Running? && InBounds(c) ==> InBounds(r.next)
    ensures key.ArrowUp? || key.ArrowDown? || key.ArrowLeft? || key.ArrowRight? ==> r == Running(MoveCursor(c, key))
  {
    match key
    case Byte(b) => if b == CtrlQ then Exit(EraseDisplay() + CursorHome()) else Running(c)
    case Home => Running(c.(cx := 0))
    case End => Running(c.(cx := c.screencols - 1))
    case PageUp => Running(Repeat(c, ArrowUp, if c.screenrows < 0 then 0 else c.screenrows))
    case PageDown => Running(Repeat(c, ArrowDown, if c.screenrows < 0 then 0 else c.screenrows))
    case Del => Running(c)
    case _ => Running(MoveCursor(c, key))
  }

  /** On the screen, each arrow key moves the cursor one cell its way, stopping at the edge. */
  lemma ArrowKeys(c: Cursor)
    requires InBounds(c)
    ensures ProcessKeypress(c, ArrowLeft) == Running(c.(cx := Max(c.cx - 1, 0)))
    ensures ProcessKeypress(c, ArrowRight) == Running(c.(cx := Min(c.cx + 1, c.screencols - 1)))
    ensures ProcessKeypress(c, ArrowUp) == Running(c.(cy := Max(c.cy - 1, 0)))
    ensures ProcessKeypress(c, ArrowDown) == Running(c.(cy := Min(c.cy + 1, c.screenrows - 1)))
  {
    MoveIsClampedStep(c);
  }

  /** A page is the whole screen, so PAGE_UP always reaches the top row and PAGE_DOWN the bottom one. */
  lemma PagingReachesEdges(c: Cursor)
    requires InBounds(c)
    ensures ProcessKeypress(c, PageUp) == Running(c.(cy := 0))
    ensures ProcessKeypress(c, PageDown) == Running(c.(cy := c.screenrows - 1))
  {
    RepeatVertical(c, c.screenrows);
  }

  /** HOME and END jump to the first and last column; the row stays. */
  lemma HomeAndEnd(c: Cursor)
    requires InBounds(c)
    ensures ProcessKeypress(c, Home) == Running(c.(cx := 0))
    ensures ProcessKeypress(c, End) == Running(c.(cx := c.screencols - 1))
    ensures InBounds(c.(cx := 0)) && InBounds(c.(cx := c.screencols - 1))
  {
  }

  /** The marker drawn at the start of every screen line, with the rest of the line erased. */
  function Marker(): string { "*" + EraseLine() }

  /** Lines `y` up to the last one; CR LF goes between lines, not after the last. */
  function DrawRowsFrom(y: int, screenrows: int): (r: string)
    ensures |r| == if y < screenrows then 6 * (screenrows - y) - 2 else 0
    ensures y < screenrows ==> Marker() <= r
    decreases screenrows - y
  {
    if y >= screenrows then []
    else Marker() + (if y < screenrows - 1 then CrLf() else []) + DrawRowsFrom(y + 1, screenrows)
  }

  /** `editorDrawRows` of the second editor. */
  function DrawRows(screenrows: int): (r: string)
    ensures |r| == if 0 < screenrows then 6 * screenrows - 2 else 0
    ensures 0 < screenrows ==> Marker() <= r
  {
    DrawRowsFrom(0, screenrows)
  }

  /** Line `y` onwards is `k` markers each ended by CR LF, then the last marker without one. */
  lemma {:induction false} DrawRowsFromShape(y: int, screenrows: int)
    requires 0 <= y < screenrows
    ensures DrawRowsFrom(y, screenrows) == Join(seq(screenrows - 1 - y, _ => Marker())) + Marker()
    decreases screenrows - y
  {
    var k := screenrows - 1 - y;
    if k == 0 {
      assert DrawRowsFrom(y + 1, screenrows) == [];
      assert Join(seq(0, _ => Marker())) == [];
    } else {
      DrawRowsFromShape(y + 1, screenrows);
      var markers := seq(k, _ => Marker());
      assert markers[1..] == seq(k - 1, _ => Marker());
    }
  }

  /** `editorRefreshScreen` of the second editor. */
  function RefreshScreen(c: Cursor): (r: string)
    ensures |r| >= |HideCursor()| + |CursorHome()| + |ShowCursor()|
    ensures HideCursor() + CursorHome() <= r
  {
    HideCursor() + CursorHome() + DrawRows(c.screenrows) + CursorPosition(c.cy + 1, c.cx + 1) + ShowCursor()
  }

  /** The loop of `editorDrawRows` on the append buffer: `*`, EL, and CR LF on all but the last line. */
  method AppendMarkers(ab0: string, screenrows: int) returns (ab: string)
    ensures ab == ab0 + DrawRows(screenrows)
  {
    ghost var whole := ab0 + DrawRowsFrom(0, screenrows);
    ab := ab0;
    var y := 0;
    while y < screenrows
      invariant 0 <= y
      invariant ab + DrawRowsFrom(y, screenrows) == whole
    {
      ghost var before := ab;
      ab := AbAppend(ab, "*", 1);
      ab := AbAppend(ab, EraseLine(), 3);
      if y < screenrows - 1 {
        ab := AbAppend(ab, CrLf(), 2);
      }
      MarkerStep(before, ab, y, screenrows);
      y := y + 1;
    }
    assert DrawRowsFrom(y, screenrows) == [];
  }

  /** Appending line `y` leaves the lines after it to go. */
  lemma MarkerStep(before: string, after: string, y: int, screenrows: int)
    requires y < screenrows
    requires after == before + Marker() + (if y < screenrows - 1 then CrLf() else [])
    ensures after + DrawRowsFrom(y + 1, screenrows) == before + DrawRowsFrom(y, screenrows)
  {
  }

  /** `editorRefreshScreen` of the second editor on the append buffer. */
  method BuildScreen(c: Cursor) returns (ab: string)
    ensures ab == RefreshScreen(c)
  {
    ab := AbAppend([], HideCursor(), 6);
    ab := AbAppend(ab, CursorHome(), 3);
    ghost var home := ab;
    ab := AppendMarkers(ab, c.screenrows);
    ghost var drawn := ab;
    var buf := CursorPosition(c.cy + 1, c.cx + 1);
    ab := AbAppend(ab, buf, |buf|);
    ghost var placed := ab;
    ab := AbAppend(ab, ShowCursor(), 6);
    Concat3(home, drawn, placed, ab, DrawRows(c.screenrows), buf, ShowCursor());
    assert home == HideCursor() + CursorHome();
  }

  /** Where the terminal breaks `home`, then `k` markers ended by CR LF, then `last`. */
  lemma {:induction false} SplitMarkers(whole: string, home: string, k: nat, last: string)
    requires '\n' !in home && '\n' !in last
    requires whole == home + Join(seq(k, _ => Marker())) + last
    ensures var lines := Split(whole);
      && |lines| == k + 1
      && (k == 0 ==> lines[0] == home + last)
      && (k > 0 ==> lines[0] == home + Marker() && lines[k] == last)
      && (forall y :: 0 < y < k ==> lines[y] == Marker())
  {
    var markers := seq(k, _ => Marker());
    if k == 0 {
      assert home + Join(markers) + last == home + last;
      SplitSingleLine(home + last);
    } else {
      var rest := Join(markers[1..]) + last;
      assert home + Join(markers) + last == (home + Marker()) + CrLf() + rest;
      SplitLine(home + Marker(), rest);
      assert forall i :: 0 <= i < |markers[1..]| ==> '\n' !in markers[1..][i];
      SplitJoin(markers[1..], last);
      SplitSingleLine(last);
      var lines := Split(whole);
      assert lines == [home + Marker()] + markers[1..] + [last];
      forall y | 0 < y < k
        ensures lines[y] == Marker()
      {
        assert lines[y] == markers[1..][y - 1];
      }
    }
  }

  lemma RegroupMarkers(home: string, markers: string, last: string, place: string, show: string)
    ensures home + (markers + last) + place + show == home + markers + (last + (place + show))
  {
  }

  /**
    A frame of the second editor fills exactly the screen: one line per
    screen row, each starting with a marker, and the cursor is placed on
    the last line after its marker.
   */
  lemma FrameLines(c: Cursor)
    requires 1 <= c.screenrows
    ensures var lines := Split(RefreshScreen(c)); var place := CursorPosition(c.cy + 1, c.cx + 1) + ShowCursor();
      && |lines| == c.screenrows
      && (c.screenrows == 1 ==> lines[0] == HideCursor() + CursorHome() + Marker() + place)
      && (c.screenrows > 1 ==> lines[0] == HideCursor() + CursorHome() + Marker())
      && (forall y :: 0 < y < c.screenrows - 1 ==> lines[y] == Marker())
      && (c.screenrows > 1 ==> lines[c.screenrows - 1] == Marker() + place)
  {
    var place := CursorPosition(c.cy + 1, c.cx + 1) + ShowCursor();
    RefreshShape(c);
    PlaceIsOneLine(c);
    SplitMarkers(RefreshScreen(c), HideCursor() + CursorHome(), c.screenrows - 1, Marker() + place);
  }

  lemma RefreshShape(c: Cursor)
    requires 1 <= c.screenrows
    ensures RefreshScreen(c) == HideCursor() + CursorHome() + Join(seq(c.screenrows - 1, _ => Marker()))
      + (Marker() + (CursorPosition(c.cy + 1, c.cx + 1) + ShowCursor()))
  {
    DrawRowsFromShape(0, c.screenrows);
    RegroupMarkers(HideCursor() + CursorHome(), Join(seq(c.screenrows - 1, _ => Marker())), Marker(),
      CursorPosition(c.cy + 1, c.cx + 1), ShowCursor());
  }

  lemma PlaceIsOneLine(c: Cursor)
    ensures '\n' !in Marker() + (CursorPosition(c.cy + 1, c.cx + 1) + ShowCursor())
  {
    CursorPositionIsOneLine(c.cy + 1, c.cx + 1);
    assert '\n' !in Marker() && '\n' !in ShowCursor();
  }
}

=== FILE: terminal.dfy ===
/**
  The output side of the terminal: the control sequences both editors emit
  (ECMA-48 and the DEC private cursor-visibility mode), the append buffer a
  frame is built in, and how a terminal divides a frame into lines.
 */
module Terminal {
  import opened Decimal

  const Esc: char := '\U{1B}'

  /** Control Sequence Introducer, ESC [. */
  function Csi(): string { [Esc, '['] }

  /** DECTCEM reset and set: hide and show the cursor. */
  function HideCursor(): string { Csi() + "?25l" }
  function ShowCursor(): string { Csi() + "?25h" }

  /** CUP (section 8.3.21 of ECMA-48) without parameters: cursor to the home position. */
  function CursorHome(): string { Csi() + "H" }

  /** CUP with explicit 1-based line and column, each written with `%d`. */
  function CursorPosition(line: int, column: int): string {
    Csi() + IntToString(line) + ";" + IntToString(column) + "H"
  }

  /** A decimal numeral holds no line feed. */
  lemma NumeralIsOneLine(i: int)
    ensures '\n' !in IntToString(i)
  {
    if i < 0 {
      assert IntToString(i) == "-" + NatToString(-i);
    }
  }

  /** A cursor placement stays on one line. */
  lemma CursorPositionIsOneLine(line: int, column: int)
    ensures '\n' !in CursorPosition(line, column)
  {
    NumeralIsOneLine(line);
    NumeralIsOneLine(column);
    var parts := [Csi(), IntToString(line), ";", IntToString(column), "H"];
    assert CursorPosition(line, column) == parts[0] + parts[1] + parts[2] + parts[3] + parts[4];
  }

  /** EL (section 8.3.41 of ECMA-48) with the default parameter: erase to the end of the line. */
  function EraseLine(): string { Csi() + "K" }

  /** ED with parameter 2: erase the whole display. */
  function EraseDisplay(): string { Csi() + "2J" }

  /** SGR (section 8.3.117 of ECMA-48) 7 (reverse video) and the default SGR 0. */
  function ReverseVideo(): string { Csi() + "7m" }
  function ResetAttributes(): string { Csi() + "m" }

  function CrLf(): string { "\r\n" }

  /**
    `abAppend(ab, s, len)`: the first `len` bytes of `s` go after what the
    buffer already holds, and nothing else changes.
   */
  function AbAppend(ab: string, s: string, len: int): (r: string)
    requires 0 <= len <= |s|
    ensures |r| == |ab| + len
    ensures r[..|ab|] == ab
    ensures r[|ab|..] == s[..len]
  {
    ab + s[..len]
  }

  /** A string framed by `front` and `back` starts with the one and ends with the other. */
  lemma Framed(front: string, middle: string, back: string)
    ensures var w := front + middle + back;
      && |w| == |front| + |middle| + |back|
      && w[..|front|] == front && w[|w| - |back|..] == back
  {
    var w := front + middle + back;
    assert w[|w| - |back|..] == back;
  }

  /** Regrouping seven pieces around the first and the last. */
  lemma Regroup(a: string, b: string, c: string, d: string, e: string, f: string, g: string)
    ensures a + b + c + d + (e + f + g) == a + (b + c + d + e + f) + g
  {
  }

  /** Three appends in a row add the three pieces, in order. */
  lemma Concat3(ab0: string, ab1: string, ab2: string, ab3: string, a: string, b: string, c: string)
    requires ab1 == ab0 + a && ab2 == ab1 + b && ab3 == ab2 + c
    ensures ab3 == ab0 + (a + b + c)
  {
  }

  /** Four appends in a row add the four pieces, in order. */
  lemma Concat4(ab0: string, ab1: string, ab2: string, ab3: string, ab4: string, a: string, b: string, c: string, d: string)
    requires ab1 == ab0 + a && ab2 == ab1 + b && ab3 == ab2 + c && ab4 == ab3 + d
    ensures ab4 == ab0 + (a + b + c + d)
  {
  }

  /**
    The lines a terminal shows for an output string: the pieces between
    CR LF pairs. The piece after the last pair is always present (possibly
    empty), so the result is never empty.
   */
  function Split(s: string): (r: seq<string>)
    ensures 1 <= |r|
    decreases |s|
  {
    if |s| == 0 then [""]
    else if |s| >= 2 && s[0] == '\r' && s[1] == '\n' then [""] + Split(s[2..])
    else
      var t := Split(s[1..]);
      [[s[0]] + t[0]] + t[1..]
  }

  /** Text with no line feed holds no CR LF pair, so it stays on one line. */
  lemma {:induction false} SplitSingleLine(a: string)
    requires '\n' !in a
    ensures Split(a) == [a]
    decreases |a|
  {
    if |a| > 0 {
      SplitSingleLine(a[1..]);
      assert [a[0]] + a[1..] == a;
    }
  }

  /** A line of text without line feed, then CR LF, ends exactly one terminal line. */
  lemma {:induction false} SplitLine(a: string, b: string)
    requires '\n' !in a
    ensures Split(a + CrLf() + b) == [a] + Split(b)
    decreases |a|
  {
    var s := a + CrLf() + b;
    if |a| == 0 {
      assert s == "\r\n" + b;
      assert s[2..] == b;
    } else {
      assert s[0] == a[0];
      assert |a| >= 2 ==> s[1] == a[1];
      assert |a| == 1 ==> s[1] == '\r';
      assert s[1..] == a[1..] + CrLf() + b;
      SplitLine(a[1..], b);
      assert [a[0]] + a[1..] == a;
    }
  }

  /** Lines written one after another, each ended by CR LF. */
  function Join(lines: seq<string>): string
    decreases |lines|
  {
    if |lines| == 0 then [] else lines[0] + CrLf() + Join(lines[1..])
  }

  /** Joined lines are empty exactly when there are none, and otherwise end with CR LF. */
  lemma {:induction false} JoinEnds(lines: seq<string>)
    ensures Join(lines) == [] <==> lines == []
    ensures lines != [] ==> |Join(lines)| >= 2 && Join(lines)[|Join(lines)| - 2..] == CrLf()
    decreases |lines|
  {
    if lines != [] {
      var rest := Join(lines[1..]);
      JoinEnds(lines[1..]);
      assert Join(lines) == (lines[0] + CrLf()) + rest;
    }
  }

  /** Lines free of line feeds, each ended by CR LF, come back out of `Split` one by one. */
  lemma {:induction false} SplitJoin(lines: seq<string>, tail: string)
    requires forall i :: 0 <= i < |lines| ==> '\n' !in lines[i]
    ensures Split(Join(lines) + tail) == lines + Split(tail)
    decreases |lines|
  {
    if |lines| == 0 {
      assert Join(lines) + tail == tail;
    } else {
      var rest := Join(lines[1..]) + tail;
      assert Join(lines) + tail == lines[0] + CrLf() + rest;
      SplitLine(lines[0], rest);
      SplitJoin(lines[1..], tail);
      assert lines == [lines[0]] + lines[1..];
    }
  }
}

=== FILE: viewer.dfy ===
/**
  The editing state of the third editor and what each key does to it: the
  cursor in raw coordinates, the viewport offsets, the minimal-scroll step
  that runs before every frame, single-step cursor moves with line wrap,
  and the key dispatch of `editorProcessKeypress`.
 */
module Viewer {
  import opened Wrappers
  import opened Keys
  import opened Rows
  import opened Terminal
  import opened Ints

  /**
    `struct editorConfig` without the saved terminal mode. `cy` may equal the
    number of rows: the sentinel position below the last row.
   */
  datatype Editor = Editor(
    cx: int, cy: int, rx: int,
    rowoff: int, coloff: int,
    screenrows: int, screencols: int,
    rows: seq<Row>,
    filename: Option<string>,
    statusmsg: string,
    statustime: int)

  /** The length of row `y`, and 0 for the sentinel row (or anything outside the buffer). */
  function RowLen(e: Editor, y: int): nat {
    if 0 <= y < |e.rows| then |e.rows[y].chars| else 0
  }

  /** The cursor is on a row or on the sentinel, and at most one past the row's last character. */
  predicate CursorValid(e: Editor) {
    0 <= e.cy <= |e.rows| && 0 <= e.cx <= RowLen(e, e.cy)
  }

  /** What holds between key presses. */
  predicate Valid(e: Editor) {
    && 1 <= e.screenrows && 1 <= e.screencols
    && 0 <= e.rowoff && 0 <= e.coloff
    && CursorValid(e)
    && forall y :: 0 <= y < |e.rows| ==> e.rows[y].Valid()
  }

  /** `initEditor`, with the window size as parameters. */
  function InitEditor(screenrows: int, screencols: int): (e: Editor)
    ensures 1 <= screenrows && 1 <= screencols ==> Valid(e)
    ensures e.rows == [] && e.cx == 0 && e.cy == 0 && e.rowoff == 0 && e.coloff == 0
  {
    Editor(0, 0, 0, 0, 0, screenrows, screencols, [], None, "", 0)
  }

  /**
    `getWindowSize` on the result of the `TIOCGWINSZ` query, `None` when the
    query fails: the size is refused only when the query fails or the
    window has no column. A window with no row is accepted.
   */
  function GetWindowSize(ws: Option<(nat, nat)>): (r: Option<(int, int)>)
    ensures r.None? <==> ws.None? || ws.value.1 == 0
    ensures r.Some? ==> r.value == (ws.value.0 as int, ws.value.1 as int)
  {
    if ws.None? || ws.value.1 == 0 then None else Some((ws.value.0 as int, ws.value.1 as int))
  }

  /**
    With no row on the screen the first refresh sets `rowoff` to 1 in an
    empty buffer, so PAGE_UP puts the cursor two rows past the last one,
    where the next LEFT would read the length of row 0, which is not there.
   */
  lemma ZeroRowsLeaveTheBuffer(cols: nat)
    requires 1 <= cols
    ensures GetWindowSize(Some((0, cols))) == Some((0, cols))
    ensures var s := Scroll(InitEditor(0, cols));
      && s.rows == [] && s.rowoff == 1
      && PageStart(s, PageUp) == |s.rows| + 1
      && !CursorValid(s.(cy := PageStart(s, PageUp)))
  {
  }

  /**
    The size check as evidently intended: a window with no text row is
    refused as well. Every size it accepts gives a valid editor, whose first
    refresh keeps the window inside the buffer.
   */
  function WindowSize(ws: Option<(nat, nat)>): (r: Option<(int, int)>)
    ensures r.None? <==> ws.None? || ws.value.0 == 0 || ws.value.1 == 0
    ensures r.Some? ==> r.value == (ws.value.0 as int, ws.value.1 as int)
    ensures r.Some? ==> Valid(InitEditor(r.value.0, r.value.1))
  {
    if ws.None? || ws.value.0 == 0 then None else GetWindowSize(ws)
  }

  /** Under the intended check, PAGE_UP after the first refresh starts inside the buffer. */
  lemma WindowSizeKeepsPagingInBuffer(ws: Option<(nat, nat)>)
    requires WindowSize(ws).Some?
    ensures var size := WindowSize(ws).value;
      var s := Scroll(InitEditor(size.0, size.1));
      && s.rowoff == 0 && PageStart(s, PageUp) <= |s.rows|
      && CursorValid(s.(cy := PageStart(s, PageUp)))
  {
    var size := WindowSize(ws).value;
    var s := Scroll(InitEditor(size.0, size.1));
    assert 1 <= s.screenrows;
  }

  /**
    `editorOpen` after the file has been read as `getline` lines: the name is
    kept, the lines are appended as rows and both offsets are reset.
   */
  function Open(e: Editor, filename: string, lines: seq<string>): (r: Editor)
    ensures r == e.(filename := Some(filename), rows := r.rows, rowoff := 0, coloff := 0)
    ensures |r.rows| == |e.rows| + |lines| && r.rows[..|e.rows|] == e.rows
    ensures forall i :: 0 <= i < |lines| ==> r.rows[|e.rows| + i].chars == StripLineEnding(lines[i])
    ensures Valid(e) ==> Valid(r)
  {
    var rows := Load(e.rows, lines);
    LoadedRows(e.rows, lines);
    assert forall y :: |e.rows| <= y < |rows| ==> rows[|e.rows| + (y - |e.rows|)] == rows[y];
    assert forall y :: 0 <= y < |e.rows| ==> rows[..|e.rows|][y] == rows[y];
    forall y | 0 <= y < |rows| && (forall k :: 0 <= k < |e.rows| ==> e.rows[k].Valid())
      ensures rows[y].Valid()
    {
      if y < |e.rows| {
        assert rows[y] == rows[..|e.rows|][y];
      } else {
        var i := y - |e.rows|;
        assert rows[|e.rows| + i].chars == StripLineEnding(lines[i]);
      }
    }
    e.(filename := Some(filename), rows := rows, rowoff := 0, coloff := 0)
  }

  /** Everything but the cursor position is as it was. */
  predicate OnlyCursorMoved(a: Editor, b: Editor) {
    && b.rx == a.rx && b.rowoff == a.rowoff && b.coloff == a.coloff
    && b.screenrows == a.screenrows && b.screencols == a.screencols
    && b.rows == a.rows && b.filename == a.filename
    && b.statusmsg == a.statusmsg && b.statustime == a.statustime
  }

  /**
    `editorScroll`: recompute `rx`, then move each offset just far enough
    that the cursor falls inside the window.
   */
  function Scroll(e: Editor): (r: Editor)
    requires CursorValid(e)
    ensures r == e.(rx := r.rx, rowoff := r.rowoff, coloff := r.coloff)
    ensures e.cy == |e.rows| ==> r.rx == 0
    ensures e.cy < |e.rows| ==> r.rx == CxToRx(e.rows[e.cy].chars, e.cx)
    ensures 1 <= e.screenrows ==> r.rowoff <= r.cy < r.rowoff + e.screenrows
    ensures 1 <= e.screencols ==> r.coloff <= r.rx < r.coloff + e.screencols
    ensures e.rowoff <= e.cy < e.rowoff + e.screenrows ==> r.rowoff == e.rowoff
    ensures e.coloff <= r.rx < e.coloff + e.screencols ==> r.coloff == e.coloff
    ensures forall o :: o <= e.cy < o + e.screenrows ==> Dist(r.rowoff, e.rowoff) <= Dist(o, e.rowoff)
    ensures forall o :: o <= r.rx < o + e.screencols ==> Dist(r.coloff, e.coloff) <= Dist(o, e.coloff)
    ensures Valid(e) ==> Valid(r)
  {
    var rx := if e.cy < |e.rows| then CxToRx(e.rows[e.cy].chars, e.cx) else 0;
    var rowoff := if e.cy < e.rowoff then e.cy else e.rowoff;
    var rowoff := if e.cy >= rowoff + e.screenrows then e.cy - e.screenrows + 1 else rowoff;
    var coloff := if rx < e.coloff then rx else e.coloff;
    var coloff := if rx >= coloff + e.screencols then rx - e.screencols + 1 else coloff;
    e.(rx := rx, rowoff := rowoff, coloff := coloff)
  }

  /** `editorMoveCursor`: one step of an arrow key, then `cx` is clamped to the new row. */
  function MoveCursor(e: Editor, key: Key): (r: Editor)
    requires 0 <= e.cx && 0 <= e.cy <= |e.rows|
    ensures CursorValid(r)
    ensures OnlyCursorMoved(e, r)
  {
    var moved :=
      match key
      case ArrowLeft =>
        if e.cx != 0 then e.(cx := e.cx - 1)
        else if e.cy > 0 then e.(cy := e.cy - 1, cx := |e.rows[e.cy - 1].chars|)
        else e
      case ArrowRight =>
        if e.cy < |e.rows| && e.cx < |e.rows[e.cy].chars| then e.(cx := e.cx + 1)
        else if e.cy < |e.rows| && e.cx == |e.rows[e.cy].chars| then e.(cy := e.cy + 1, cx := 0)
        else e
      case ArrowUp => if e.cy != 0 then e.(cy := e.cy - 1) else e
      case ArrowDown => if e.cy < |e.rows| then e.(cy := e.cy + 1) else e
      case _ => e;
    var rowlen := RowLen(moved, moved.cy);
    if moved.cx > rowlen then moved.(cx := rowlen) else moved
  }

  /** LEFT at the start of a row goes to the end of the previous row. */
  lemma LeftWrapsToPreviousRow(e: Editor)
    requires CursorValid(e) && e.cx == 0 && 0 < e.cy
    ensures MoveCursor(e, ArrowLeft).cy == e.cy - 1
    ensures MoveCursor(e, ArrowLeft).cx == RowLen(e, e.cy - 1)
  {
  }

  /** RIGHT at the end of a row goes to column 0 of the next row (possibly the sentinel). */
  lemma RightWrapsToNextRow(e: Editor)
    requires CursorValid(e) && e.cy < |e.rows| && e.cx == RowLen(e, e.cy)
    ensures MoveCursor(e, ArrowRight).cy == e.cy + 1
    ensures MoveCursor(e, ArrowRight).cx == 0
  {
  }

  /** LEFT at the very first position and RIGHT on the sentinel row do nothing. */
  lemma HorizontalEdges(e: Editor)
    requires CursorValid(e)
    ensures e.cx == 0 && e.cy == 0 ==> MoveCursor(e, ArrowLeft) == e
    ensures e.cy == |e.rows| ==> MoveCursor(e, ArrowRight) == e
  {
  }

  /** RIGHT then LEFT comes back to where it started, from any position on a row. */
  lemma RightThenLeft(e: Editor)
    requires CursorValid(e) && e.cy < |e.rows|
    ensures MoveCursor(MoveCursor(e, ArrowRight), ArrowLeft) == e
  {
  }

  /** LEFT then RIGHT comes back to where it started, from anywhere but the very first position. */
  lemma LeftThenRight(e: Editor)
    requires CursorValid(e) && (0 < e.cx || 0 < e.cy)
    ensures MoveCursor(MoveCursor(e, ArrowLeft), ArrowRight) == e
  {
  }

  /**
    UP and DOWN move one row, stopping at row 0 and at the sentinel row, and
    keep the column unless the new row is shorter.
   */
  lemma VerticalStep(e: Editor)
    requires 0 <= e.cx && 0 <= e.cy <= |e.rows|
    ensures var r := MoveCursor(e, ArrowUp);
      r.cy == (if e.cy == 0 then 0 else e.cy - 1) && r.cx == Min(e.cx, RowLen(e, r.cy))
    ensures var r := MoveCursor(e, ArrowDown);
      r.cy == (if e.cy == |e.rows| then e.cy else e.cy + 1) && r.cx == Min(e.cx, RowLen(e, r.cy))
  {
  }

  /** `n` repetitions of the same arrow key, as the paging keys issue them. */
  function Repeat(e: Editor, key: Key, n: nat): (r: Editor)
    requires 0 <= e.cx && 0 <= e.cy <= |e.rows|
    ensures 0 <= r.cx && 0 <= r.cy <= |r.rows|
    ensures 0 < n ==> CursorValid(r)
    ensures OnlyCursorMoved(e, r)
    decreases n
  {
    if n == 0 then e else Repeat(MoveCursor(e, key), key, n - 1)
  }

  /** The shortest row length among rows `lo..hi` (both included). */
  function MinRowLen(e: Editor, lo: int, hi: int): nat
    requires lo <= hi
    decreases hi - lo
  {
    if lo == hi then RowLen(e, hi) else Min(MinRowLen(e, lo, hi - 1), RowLen(e, hi))
  }

  /**
    `n` UP steps: the cursor rises `n` rows, stopping at row 0, and the
    column is cut down to the shortest row passed on the way.
   */
  lemma {:induction false} RepeatUp(e: Editor, n: nat)
    requires 0 <= e.cx && 0 <= e.cy <= |e.rows| && 0 < n
    ensures Repeat(e, ArrowUp, n).cy == Max(e.cy - n, 0)
    ensures Repeat(e, ArrowUp, n).cx == Min(e.cx, MinRowLen(e, Max(e.cy - n, 0), Max(e.cy - 1, 0)))
    decreases n
  {
    var e1 := MoveCursor(e, ArrowUp);
    VerticalStep(e);
    assert Repeat(e, ArrowUp, n) == Repeat(e1, ArrowUp, n - 1);
    if n > 1 {
      RepeatUp(e1, n - 1);
      var lo := Max(e.cy - n, 0);
      MinRowLenSameRows(e1, e, lo, Max(e1.cy - 1, 0));
      if e.cy >= 2 {
        assert e1.cy - 1 == e.cy - 2 && lo <= e.cy - 2;
        assert MinRowLen(e, lo, e.cy - 1) == Min(MinRowLen(e, lo, e.cy - 2), RowLen(e, e.cy - 1));
      } else {
        assert e1.cy == 0 && lo == 0;
      }
    }
  }

  /**
    `n` DOWN steps: the cursor drops `n` rows, stopping at the sentinel, and
    the column is cut down to the shortest row passed on the way.
   */
  lemma {:induction false} RepeatDown(e: Editor, n: nat)
    requires 0 <= e.cx && 0 <= e.cy <= |e.rows| && 0 < n
    ensures Repeat(e, ArrowDown, n).cy == Min(e.cy + n, |e.rows|)
    ensures Repeat(e, ArrowDown, n).cx
      == Min(e.cx, MinRowLen(e, Min(e.cy + 1, |e.rows|), Min(e.cy + n, |e.rows|)))
    decreases n
  {
    var e1 := MoveCursor(e, ArrowDown);
    VerticalStep(e);
    assert Repeat(e, ArrowDown, n) == Repeat(e1, ArrowDown, n - 1);
    if n > 1 {
      RepeatDown(e1, n - 1);
      DownStep(e, e1, Repeat(e1, ArrowDown, n - 1), n);
    }
  }

  /** The inductive step of `RepeatDown`: one step down, then `n - 1` more. */
  lemma DownStep(e: Editor, e1: Editor, r: Editor, n: nat)
    requires 0 <= e.cx && 0 <= e.cy <= |e.rows| && 1 < n
    requires e1.rows == e.rows
    requires e1.cy == Min(e.cy + 1, |e.rows|) && e1.cx == Min(e.cx, RowLen(e, e1.cy))
    requires r.cy == Min(e1.cy + (n - 1), |e1.rows|)
    requires r.cx == Min(e1.cx, MinRowLen(e1, Min(e1.cy + 1, |e1.rows|), Min(e1.cy + (n - 1), |e1.rows|)))
    ensures r.cy == Min(e.cy + n, |e.rows|)
    ensures r.cx == Min(e.cx, MinRowLen(e, Min(e.cy + 1, |e.rows|), Min(e.cy + n, |e.rows|)))
  {
    var lo := Min(e.cy + 1, |e.rows|);
    var hi := Min(e.cy + n, |e.rows|);
    MinRowLenSameRows(e1, e, Min(e1.cy + 1, |e.rows|), hi);
    if lo < hi {
      MinRowLenFront(e, lo, hi);
    }
  }

  lemma {:induction false} MinRowLenSameRows(a: Editor, b: Editor, lo: int, hi: int)
    requires lo <= hi && a.rows == b.rows
    ensures MinRowLen(a, lo, hi) == MinRowLen(b, lo, hi)
    decreases hi - lo
  {
    if lo < hi {
      MinRowLenSameRows(a, b, lo, hi - 1);
    }
  }

  /** The minimum can also be peeled off at the low end. */
  lemma {:induction false} MinRowLenFront(e: Editor, lo: int, hi: int)
    requires lo < hi
    ensures MinRowLen(e, lo, hi) == Min(RowLen(e, lo), MinRowLen(e, lo + 1, hi))
    decreases hi - lo
  {
    if lo + 1 < hi {
      MinRowLenFront(e, lo, hi - 1);
    }
  }

  /**
    Where the paging keys jump before stepping: the top row of the window for
    PAGE_UP, its bottom row (at most the sentinel) for PAGE_DOWN.
   */
  function PageStart(e: Editor, key: Key): int {
    if key == PageUp then e.rowoff
    else
      var bottom := e.rowoff + e.screenrows - 1;
      if bottom > |e.rows| then |e.rows| else bottom
  }

  /**
    The paging block of `editorProcessKeypress`: jump to the start row, then
    take `screenrows` single steps, up for PAGE_UP and down for PAGE_DOWN.
   */
  function Page(e: Editor, key: Key): (r: Editor)
    requires key == PageUp || key == PageDown
    requires 1 <= e.screenrows && 0 <= e.rowoff <= |e.rows| && 0 <= e.cx
    ensures CursorValid(r) && OnlyCursorMoved(e, r)
  {
    Repeat(e.(cy := PageStart(e, key)), if key == PageUp then ArrowUp else ArrowDown, e.screenrows)
  }

  /** What a key press does: keep running with a new state, or clear the screen and quit. */
  datatype Reaction = Continue(next: Editor) | Quit(output: string)

  /**
    `editorProcessKeypress` for an already decoded key. The paging keys first
    jump to the top or bottom of the window, which is why the viewport must
    lie inside the buffer, as every refresh leaves it.
   */
  function ProcessKeypress(e: Editor, key: Key): (r: Reaction)
    requires Valid(e) && e.rowoff <= |e.rows|
    ensures r.Quit? <==> key == Byte(CtrlQ)
    ensures r.Quit? ==> r.output == EraseDisplay() + CursorHome()
    ensures r.Continue? ==> Valid(r.next) && OnlyCursorMoved(e, r.next)
  {
    match key
    case Byte(b) => if b == CtrlQ then Quit(EraseDisplay() + CursorHome()) else Continue(e)
    case Home => Continue(e.(cx := 0))
    case End => Continue(if e.cy < |e.rows| then e.(cx := |e.rows[e.cy].chars|) else e)
    case PageUp => Continue(Page(e, PageUp))
    case PageDown => Continue(Page(e, PageDown))
    case Del => Continue(e)
    case _ => Continue(MoveCursor(e, key))
  }

  /**
    The four arrows are single cursor steps: UP and DOWN change the row by
    one, stopping at the top and at the sentinel.
   */
  lemma ArrowKeys(e: Editor, key: Key)
    requires Valid(e) && e.rowoff <= |e.rows|
    ensures key.ArrowUp? || key.ArrowDown? || key.ArrowLeft? || key.ArrowRight? ==>
      ProcessKeypress(e, key) == Continue(MoveCursor(e, key))
    ensures ProcessKeypress(e, ArrowUp).next.cy == Max(e.cy - 1, 0)
    ensures ProcessKeypress(e, ArrowDown).next.cy == Min(e.cy + 1, |e.rows|)
  {
    VerticalStep(e);
  }

  /**
    The paging keys run the paging block: PAGE_UP lands `screenrows` rows
    above the top of the window and PAGE_DOWN `2 * screenrows - 1` below it,
    both clamped to the buffer.
   */
  lemma PagingKeys(e: Editor)
    requires Valid(e) && e.rowoff <= |e.rows|
    ensures ProcessKeypress(e, PageUp) == Continue(Page(e, PageUp))
    ensures ProcessKeypress(e, PageDown) == Continue(Page(e, PageDown))
    ensures ProcessKeypress(e, PageUp).next.cy == Max(e.rowoff - e.screenrows, 0)
    ensures ProcessKeypress(e, PageDown).next.cy == Min(e.rowoff + 2 * e.screenrows - 1, |e.rows|)
  {
    PageUpLands(e);
    PageDownLands(e);
  }

  /** HOME, END, DEL and ordinary bytes. */
  lemma SimpleKeys(e: Editor, b: byte)
    requires Valid(e) && e.rowoff <= |e.rows|
    ensures ProcessKeypress(e, Home) == Continue(e.(cx := 0))
    ensures ProcessKeypress(e, End).next.cx == RowLen(e, e.cy)
    ensures ProcessKeypress(e, End).next.cy == e.cy
    ensures ProcessKeypress(e, Del) == Continue(e)
    ensures b != CtrlQ ==> ProcessKeypress(e, Byte(b)) == Continue(e)
  {
  }

  /**
    PAGE_UP ends `screenrows` rows above the top of the window, clamped to
    row 0; the column is cut down to the shortest row it passed.
   */
  lemma PageUpLands(e: Editor)
    requires 1 <= e.screenrows && 0 <= e.rowoff <= |e.rows| && 0 <= e.cx
    ensures Page(e, PageUp).cy == Max(e.rowoff - e.screenrows, 0)
    ensures Page(e, PageUp).cx == Min(e.cx, MinRowLen(e, Max(e.rowoff - e.screenrows, 0), Max(e.rowoff - 1, 0)))
  {
    var lo := Max(e.rowoff - e.screenrows, 0);
    var hi := Max(e.rowoff - 1, 0);
    PageUpFromTop(e, lo, hi);
  }

  lemma PageUpFromTop(e: Editor, lo: int, hi: int)
    requires 1 <= e.screenrows && 0 <= e.rowoff <= |e.rows| && 0 <= e.cx
    requires lo == Max(e.rowoff - e.screenrows, 0) && hi == Max(e.rowoff - 1, 0)
    ensures lo <= hi
    ensures var r := Repeat(e.(cy := PageStart(e, PageUp)), ArrowUp, e.screenrows);
      && r.cy == lo
      && r.cx == Min(e.cx, MinRowLen(e, lo, hi))
  {
    var up := e.(cy := PageStart(e, PageUp));
    RepeatUp(up, e.screenrows);
    MinRowLenSameRows(up, e, lo, hi);
  }

  /**
    PAGE_DOWN ends `2 * screenrows - 1` rows below the top of the window,
    clamped to the sentinel row; the column is cut down to the shortest row
    it passed.
   */
  lemma PageDownLands(e: Editor)
    requires 1 <= e.screenrows && 0 <= e.rowoff <= |e.rows| && 0 <= e.cx
    ensures Page(e, PageDown).cy == Min(e.rowoff + 2 * e.screenrows - 1, |e.rows|)
    ensures Page(e, PageDown).cx
      == Min(e.cx, MinRowLen(e, Min(e.rowoff + e.screenrows, |e.rows|), Min(e.rowoff + 2 * e.screenrows - 1, |e.rows|)))
  {
    var start := PageStart(e, PageDown);
    assert start == Min(e.rowoff + e.screenrows - 1, |e.rows|);
    var lo := Min(start + 1, |e.rows|);
    var hi := Min(start + e.screenrows, |e.rows|);
    assert lo == Min(e.rowoff + e.screenrows, |e.rows|);
    assert hi == Min(e.rowoff + 2 * e.screenrows - 1, |e.rows|);
    PageDownFromStart(e, start, lo, hi);
  }

  lemma PageDownFromStart(e: Editor, start: int, lo: int, hi: int)
    requires 1 <= e.screenrows && 0 <= e.rowoff <= |e.rows| && 0 <= e.cx
    requires start == PageStart(e, PageDown) == Min(e.rowoff + e.screenrows - 1, |e.rows|)
    requires lo == Min(start + 1, |e.rows|) && hi == Min(start + e.screenrows, |e.rows|)
    ensures lo <= hi
    ensures var r := Repeat(e.(cy := PageStart(e, PageDown)), ArrowDown, e.screenrows);
      && r.cy == Min(e.rowoff + 2 * e.screenrows - 1, |e.rows|)
      && r.cx == Min(e.cx, MinRowLen(e, lo, hi))
  {
    var down := e.(cy := start);
    RepeatDown(down, e.screenrows);
    MinRowLenSameRows(down, e, lo, hi);
  }
}

=== FILE: wrappers.dfy ===
/** The optional-value datatype used for failed reads and for a missing file name. */
module Wrappers {

  datatype Option<+T> = None | Some(value: T)
}
